=== FILE: README.md ===
# pinia-react store engine in Dafny

This project models the store engine of pinia-react, a Pinia-style state library for React. It covers:

- the `defineStore` closure of `packages/pinia/src/store.ts`, meaning `getStore`, the commit pipeline (`internalPatch`, `$patch`, `$reset`, `$subscribe`, `$dispose`), the plugin loop, the read facade built by `createStoreProxy`, and the invalidation filter of `useStore`;
- the registry (`createPinia`, `use`) and the active registry (`setActivePinia`, `getActivePinia`), in both the package version and the legacy `src/` version;
- the merge helpers `mergeReactiveObjects` and `reactiveMerge`;
- the subscription-set helpers.

Everything is sequential and data-only. Mutable JavaScript state becomes immutable records threaded through pure functions:

- The shared registries live in a heap (`Registry.Root`), so a `use` on the active registry is visible through `getActivePinia`.
- One `defineStore` closure is a `Store.Session`. It holds the `listeners` variable, which is undefined before the first `getStore` and after `$dispose`. It also holds the `currentState` of every instance `getStore` created.
- JavaScript values are `Json.Value`. Objects, arrays, Maps and Sets carry their own properties; numbers are integers.
- immer is not modelled. Each commit receives the next state and the patch list immer would report. For object-form `$patch`, the assumption that a top-level key yields a patch iff its value changes is stated as `Store.ImmerAssignPatches`; values are compared structurally.
- Plugins are a function parameter from a plugin and its context to the returned extension. The state factory's result is a parameter. So are a getter's result and a function's identity where the facade hands one out.
- The `get` trap is a classifier, `Facade.TopRead`. It returns the dispatched thing together with the paths reported to `onAccess`. A nested proxy is a `Facade.Handle` carrying its target and root path.
- Module code runs in strict mode, so `.length` written onto a primitive throws a `TypeError`. So do `k in undefined`, calls through an undefined `listeners`, and `Object.assign` onto the store facade. Each throw is a `Failure(TypeError)` result, after whatever state change the code made before throwing.
- An assignment made by application code through the store facade hits the refusing `set` trap. It throws when the assigning code is strict and is ignored otherwise; `Facade.AssignAsWritten` takes the caller's mode as a parameter. A nested proxy has no `set` trap, so a write through it changes the current state in place.

Where the repository's tests and the code disagree, the model follows the code:

- `Object.assign(storePublicApi, ext)` in the plugin loop goes through the proxy's `set` trap. That trap refuses every write. So a plugin returning an object with an own enumerable property makes `getStore` throw, and the id stays unregistered. The plugin tests expect extensions to become store properties. `StoreLemmas.ExtendingPluginThrows` states what the code does.
- `getters` run on every read with no cache (`Facade.ReadsSeeCommittedState`). The getter-caching tests describe behaviour `store.ts` does not have.
- `use` in `packages/pinia/src/createPinia.ts` appends to an array and keeps duplicates (`Registry.UseKeepsDuplicates`). The duplicate-plugin test at `tests/storePlugins.spec.ts:229-232` imports `createPinia` from `src/index.ts`, which re-exports `src/createPinia.ts`; that file is not part of this model. The legacy Set-based `src/pinia.ts`, used only by `src/defineStore.ts`, is modelled as `LegacyRegistry`.
- The plugin context is `{ pinia, store, options }` with no `id` field, while `packages/pinia/tests/storePlugins.spec.ts:35` reads `context.id`. `Store.PluginContext` has no id.
- Tracked paths are joined with `'.'` and split again. A state key containing a dot therefore does not round-trip. A change to such a key is missed (`Paths.DottedKeyChangeMissed`), and a change to an unrelated key can re-render (`Paths.DottedKeySpuriousRender`).

## Model

| member | source | states |
|---|---|---|
| Json.IsPlainObject | packages/pinia/src/utils.ts:9-15 | only an ordinary object can be plain; an ordinary object without a `toJSON` property is plain, and one whose `toJSON` is a function is not; null, primitives, arrays, Maps, Sets and functions are not |
| Json.GetProperty | packages/pinia/src/store.ts:102 | `Reflect.get` gives `undefined` for a key the value does not have and the own property's value for one it has; on an array, `length` gives the element count and the key of index `i` gives element `i` |
| Merge.MergeCollections | packages/pinia/src/utils.ts:22-29 | the Map and Set steps keep the target's kind and own properties |
| Merge.MergeReactiveObjects | packages/pinia/src/utils.ts:18-53 | the result has the target's kind; keys the patch does not name keep their value; a key that is not a plain-object pair (on both sides, target owning it) takes the patch value wholesale; plain-object pairs are merged so nested keys survive; Map patch entries are set on a Map target; a Set target becomes the union |
| Merge.MergeEmptyPatch | packages/pinia/src/utils.ts:32-52 | an empty patch returns the target unchanged |
| Merge.MergeSelf | packages/pinia/src/utils.ts:32-52 | merging a value into itself returns it unchanged |
| Merge.MergeIdempotent | packages/pinia/src/utils.ts:32-52 | applying the same patch twice equals applying it once |
| ReactiveMerge.ArrayInto | src/utils.ts:24-31 | an array copied into `undefined` or an array yields the same elements and length; into an object the `length` property and each index property, holding that element, are set; into null, a primitive or a function the write throws |
| ReactiveMerge.Cleared | src/utils.ts:8-14 | with `clear`, exactly the keys of `x` that `y` also has remain, with their values; without it `x` is untouched |
| ReactiveMerge.ReactiveMerge | src/utils.ts:7-36 | with `clear` no key outside `y` remains; without it the keys `y` lacks survive; identical values are skipped; no new keys beyond `x` and `y`; an array meeting a scalar throws |
| ReactiveMerge.ObjectsMergeRecursively | src/utils.ts:22-23 | two differing objects under a key are merged by the recursive call, with the same `clear` flag |
| ReactiveMerge.ArrayIsCopied | src/utils.ts:24-31 | an array in `y` meeting an array or nothing leaves `x[k]` with the same length and elements |
| ReactiveMerge.OtherValueIsCopied | src/utils.ts:32-33 | any other defined value is copied into `x[k]` |
| ReactiveMerge.ClearIsDeep | src/utils.ts:8-23 | with `clear`, at every level where both sides are objects, no key outside `y` remains |
| ReactiveMerge.ClearMakesEqual | src/utils.ts:7-36 | on compatible trees, merging with `clear` makes `x` equal to `y` |
| ReactiveMerge.ArrayOverNumberThrows | src/utils.ts:27 | an array cannot be written over a number |
| OrderedSet.Add | packages/pinia/src/subscription.ts:12 | Set insertion: keeps members distinct, adds the element at the end only if absent, and changes nothing otherwise |
| OrderedSet.Delete | packages/pinia/src/subscription.ts:15 | Set deletion: a present element is cut out at its position, so the others keep their insertion order; members stay distinct; an absent element changes nothing |
| Subscription.AddSubscription | packages/pinia/src/subscription.ts:5-24 | the callback is inserted; re-adding a present one changes nothing; the remover joins the cleanup list iff not detached |
| Subscription.CallRemover | packages/pinia/src/subscription.ts:14-17 | the remover deletes exactly its callback and then runs `onCleanup` |
| Subscription.RemoveTwice | packages/pinia/src/subscription.ts:14-17 | a second call leaves the set as it is but runs `onCleanup` again |
| Subscription.AddThenRemove | packages/pinia/src/subscription.ts:12-17 | removing right after adding restores the set and runs the cleanup once |
| Subscription.TriggerSubscriptions | packages/pinia/src/subscription.ts:26-30 | each member is called once, in insertion order, with the same arguments |
| Subscription.LegacyAddSubscription | src/subscription.ts:5-20 | the legacy helper inserts the callback and touches no cleanup list |
| Subscription.LegacyDetachedIgnored | src/subscription.ts:8-19 | the legacy `detached` argument has no effect; the legacy helper equals the package helper called detached |
| Registry.CreatePinia | packages/pinia/src/createPinia.ts:5-23 | a new registry with no plugins, stores or state is allocated and becomes the active one |
| Registry.Use | packages/pinia/src/createPinia.ts:11-14 | the plugin is appended; the same registry is returned; stores, state and every other registry are unchanged |
| Registry.UseKeepsDuplicates | packages/pinia/src/createPinia.ts:12 | registering one plugin twice keeps both entries |
| Registry.UseOnActiveIsVisible | packages/pinia/src/createPinia.ts:11-20 | a plugin added to the registry `createPinia` activated is seen through the active registry |
| Registry.GetActivePinia | packages/pinia/src/rootStore.ts:10-19 | the active registry when one is set; otherwise an error whose message starts with `[pinia-react]` |
| Registry.GetBeforeSetFails | packages/pinia/src/rootStore.ts:4-17 | before any `setActivePinia`, `getActivePinia` throws |
| Registry.SetActivePinia | packages/pinia/src/rootStore.ts:6-8 | the given registry becomes the active one and no registry changes |
| Registry.LastSetWins | packages/pinia/src/rootStore.ts:7 | after two `setActivePinia` calls, the second one is returned |
| LegacyRegistry.LegacyCreatePinia | src/pinia.ts:12-22 | an empty registry is allocated and the active one is not changed |
| LegacyRegistry.LegacyModuleLoad | src/pinia.ts:28 | module load makes a fresh empty registry the active one |
| LegacyRegistry.LegacyUse | src/pinia.ts:17-20 | the plugin is added to the set and the same registry is returned, with nothing else changed |
| LegacyRegistry.LegacyUseDeduplicates | src/pinia.ts:18 | registering one plugin any number of times adds at most one entry |
| LegacyRegistry.LegacySetActivePinia | src/pinia.ts:24-26 | the module-level registry is replaced |
| Paths.Split | packages/pinia/src/store.ts:157 | `split('.')` always returns at least one piece |
| Paths.JoinSplit | packages/pinia/src/store.ts:157-185 | splitting and re-joining a tracked string gives it back |
| Paths.SplitJoinRoundTrip | packages/pinia/src/store.ts:157-185 | a path survives `join('.')` then `split('.')` iff it is non-empty and has no key containing a dot |
| Paths.AgreesIffPrefix | packages/pinia/src/store.ts:163-165 | two paths agree up to the shorter length iff one is a prefix of the other |
| Paths.AgreeLoop | packages/pinia/src/store.ts:162-166 | the index loop answers true iff one path is a prefix of the other |
| Paths.Join | packages/pinia/src/store.ts:185 | `join('.')` of no keys is the empty string; otherwise the joined string starts with the first key, followed by a dot when more keys follow |
| Paths.ListenerFires | packages/pinia/src/store.ts:156-170 | a binding listener can only fire with something tracked and at least one patch |
| Paths.FiresIffRelated | packages/pinia/src/store.ts:156-170 | with dot-free tracked paths, a binding re-renders iff the tracked set is non-empty and some patch path is an ancestor or descendant of some tracked path |
| Paths.RootPatchFires | packages/pinia/src/store.ts:158-166 | a root `[]` patch re-renders every binding that tracked something |
| Paths.EmptyTrackedNeverFires | packages/pinia/src/store.ts:158 | a binding that tracked nothing is never re-rendered |
| Paths.SiblingPatchDoesNotFire | packages/pinia/src/store.ts:156-170 | a patch to a sibling of the only tracked path does not re-render |
| Paths.DottedKeyChangeMissed | packages/pinia/src/store.ts:157-185 | a change to a tracked key containing a dot does not re-render |
| Paths.DottedKeySpuriousRender | packages/pinia/src/store.ts:157-185 | a change to key `a` re-renders a binding that read key `a.b` |
| Store.DefineStore | packages/pinia/src/store.ts:32 | `defineStore` fails iff no registry is active and otherwise captures the active one |
| Store.PluginOptionsOf | packages/pinia/src/store.ts:91-143 | plugins see the options with `actions` defaulted to an empty set |
| Store.RunPlugins | packages/pinia/src/store.ts:142-145 | plugins run in registration order with one context, stopping right after the first whose extension makes the assignment throw |
| Store.GetStore | packages/pinia/src/store.ts:38-150 | a registered id returns its instance with no factory or plugin call; otherwise a new instance is created, plugins run, and the id is registered iff no plugin throws |
| Store.Emit | packages/pinia/src/store.ts:49-51 | every listener is called once, in order, with the same `(next, old, patches)` |
| Store.InternalPatch | packages/pinia/src/store.ts:53-66 | a commit happens iff there are patches or it is a reset; a commit sets the instance state and the registry state to the next state and calls each listener with `(next, old, patches)`; otherwise nothing changes; after `$dispose` the commit throws once the state is written |
| Store.PatchObject | packages/pinia/src/store.ts:61-73 | object-form `$patch` commits iff some named key changes value; a commit installs the shallow assignment as the instance state and the registry state, keeps the listener set, and calls each listener in order with `(next, old, patches)`, or throws after the write when `listeners` is undefined; otherwise nothing changes |
| Store.ShallowAssign | packages/pinia/src/store.ts:72 | each key named in the partial is replaced wholesale and every other key is left alone |
| Store.PatchWith | packages/pinia/src/store.ts:53-70 | a mutator that produces no patch changes nothing; one that produces patches commits its state to the instance and the registry and calls each listener in order with `(next, old, patches)`, or throws after the write when `listeners` is undefined |
| Store.Reset | packages/pinia/src/store.ts:53-76 | with no state factory, `$reset` throws and changes nothing; with one, it commits the factory's state whatever patches immer reports, and calls each listener in order with `(factory state, old, patches)`, or throws after the write when `listeners` is undefined |
| Store.AddListener | packages/pinia/src/store.ts:80 | a fresh listener is appended to the listener set; with `listeners` undefined the call throws |
| Store.Subscribe | packages/pinia/src/store.ts:78-82 | `$subscribe` adds a new listener wrapping the callback at the end of the set and changes no state; with `listeners` undefined it throws and changes nothing |
| Store.SubscribeBinding | packages/pinia/src/store.ts:155-174 | `useStore`'s `subscribe` adds a new listener for the binding at the end of the set and changes no state; with `listeners` undefined it throws and changes nothing |
| Store.RemoveListener | packages/pinia/src/store.ts:81 | the remover deletes exactly its listener and reports whether it was present |
| Store.Dispose | packages/pinia/src/store.ts:84-89 | the listeners become undefined, and the id leaves both the store map and the state table |
| Store.Deliver | packages/pinia/src/store.ts:79-170 | a `$subscribe` wrapper forwards `(state, prev)` only; a binding asks for a re-render iff the filter fires |
| StoreLemmas.CommitCallsEachListenerOnce | packages/pinia/src/store.ts:49-64 | a commit calls each registered listener exactly once |
| StoreLemmas.ResetAlwaysCommits | packages/pinia/src/store.ts:61-76 | `$reset` commits whatever patches immer reports, none included, and installs the factory's state |
| StoreLemmas.PatchObjectReplacesNested | packages/pinia/src/store.ts:72 | a nested object in the partial replaces the old one instead of being merged, and the other keys are unchanged |
| StoreLemmas.SubscribeThenUnsubscribe | packages/pinia/src/store.ts:78-82 | a subscribed callback receives `(next, old)` on a commit; after its remover runs, commits no longer reach it |
| StoreLemmas.BindingNotifiedIffFilterFires | packages/pinia/src/store.ts:155-172 | a binding's listener asks for a re-render on a commit iff the filter fires for its tracked paths |
| StoreLemmas.GetStoreIsSingleton | packages/pinia/src/store.ts:39-41 | a second `getStore` returns the same instance, changes nothing and runs no plugin |
| StoreLemmas.FirstGetStoreCreates | packages/pinia/src/store.ts:43-147 | when no plugin returns an extension with properties, the first `getStore` calls every plugin once and registers a new instance holding the factory's state (or `{}` without a factory), with an empty listener set |
| StoreLemmas.ExtendingPluginThrows | packages/pinia/src/store.ts:43-147 | if any registered plugin returns an object with properties, the first `getStore` throws after the new state is set, and the id stays unregistered |
| StoreLemmas.DisposeThenRebuild | packages/pinia/src/store.ts:84-89 | after `$dispose` the id is gone, and the next `getStore` rebuilds from the factory and reruns the plugins |
| StoreLemmas.SubscribeAfterDisposeThrows | packages/pinia/src/store.ts:80-88 | subscribing on a disposed instance throws |
| Facade.KeyString | packages/pinia/src/store.ts:113 | `String(key)` is the name of a string key; a symbol converts without throwing |
| Facade.TopRead | packages/pinia/src/store.ts:112-131 | the four API names come first; a provided value that is not an object throws; only a state key is recorded, as a one-element path; a getter runs on the provided state; otherwise an action, else `undefined` |
| Facade.DeepRead | packages/pinia/src/store.ts:95-108 | a nested read reports `path + [key]` and wraps objects at that path; a symbol key reports nothing |
| Facade.PlainGet | packages/pinia/src/store.ts:106 | reading a property off `undefined` or `null` throws; any other raw value yields a value |
| Facade.FollowRecordsRootPaths | packages/pinia/src/store.ts:95-106 | a chain of reads reports the root path of each property it reads through proxies, in order, and nothing after leaving them |
| Facade.FollowRecordsEveryPrefix | packages/pinia/src/store.ts:99-104 | through objects all along, every read of the chain is reported |
| Facade.NestedReadRecordsPrefixes | packages/pinia/src/store.ts:99-124 | reading `store.k.k1...kn` reports exactly the root prefixes `[k]`, `[k, k1]`, and so on up to the full path |
| Facade.SymbolReadRecordsNothing | packages/pinia/src/store.ts:98 | a symbol key read through a nested proxy reports nothing |
| Facade.ApiNamesShadowEverything | packages/pinia/src/store.ts:114-117 | the API names are answered before the state, getters and actions are consulted |
| Facade.StateThenGettersThenActions | packages/pinia/src/store.ts:121-130 | state keys win over getters, getters over actions, and anything else reads `undefined` |
| Facade.StoreRead | packages/pinia/src/store.ts:139 | reads on the instance `getStore` returns record nothing, and the dispatch itself never throws |
| Facade.ReadsSeeCommittedState | packages/pinia/src/store.ts:119-127 | after a commit a getter runs on the committed state, with no cache, and a state key reads the committed value |
| Facade.SetOwn | packages/pinia/src/store.ts:95-108 | a write onto an object, Map or Set sets the own property and nothing else; onto an array it sets an existing or the next index; the written key then reads back as the written value |
| Facade.SetAt | packages/pinia/src/store.ts:95-108 | a write through a nested proxy reads back at its path and leaves every other top-level key alone |
| Facade.AssignAsWritten | packages/pinia/src/store.ts:95-135 | a write to the store facade is refused (a `TypeError` in strict code, ignored otherwise) and changes nothing; a write through a nested proxy is accepted, changes the instance's state in place, and calls no listener |
| Facade.AssignCorrected | packages/pinia/src/store.ts:132-135 | with every level refusing like the top-level trap, a write changes nothing and throws exactly in strict code |
| Facade.NestedWriteMissesListeners | packages/pinia/src/store.ts:95-108 | `store.user.name = 'x'` is accepted and installs, in the instance and the registry, the state `$patch({ user: { name: 'x' } })` would commit, while the listener set is untouched and no listener is called |
| Facade.CorrectedWriteKeepsPatchEffective | packages/pinia/src/store.ts:68-73 | with the write refused, the state is unchanged and the following `$patch` commits the change to every listener |
| Facade.AssignFailsIffExtensionThrows | packages/pinia/src/store.ts:144 | assigning a plugin extension through the facade fails exactly when the extension is truthy and has an own enumerable property |
| Facade.BeginRender | packages/pinia/src/store.ts:180 | each render starts with an empty tracked set |
| Facade.RecordReadsAdds | packages/pinia/src/store.ts:184-186 | `onAccess` adds each reported path, joined with dots, to the tracked set and removes nothing |
| Facade.RenderTracksOnlyItsReads | packages/pinia/src/store.ts:180-186 | after a render the tracked set holds exactly the joined paths read in that render |
| Facade.BindingStateAsWritten | packages/pinia/src/store.ts:183 | the binding's provider reads `$state` through the facade, which gives `undefined` unless the state, getters or actions define `$state` |
| Facade.BindingReadThrowsAsWritten | packages/pinia/src/store.ts:119-121 | as written, every non-API read on a binding throws and tracks nothing |
| Facade.CounterReadThrowsAsWritten | packages/pinia/src/store.ts:183 | reading `count` from a binding over `{ count: 0 }` throws as written and returns `0` with the corrected provider |
| Facade.BindingReadAsWritten | packages/pinia/src/store.ts:182-187 | as written, a binding read of one of the four API names still succeeds |
| Facade.BindingRead | packages/pinia/src/store.ts:182-187 | with the provider reading the current state, the dispatch of a binding read never throws |
| Facade.BindingReadTracksStateKeys | packages/pinia/src/store.ts:119-124 | with the provider reading the current state, a key is tracked iff it is a state key, and a state key reads its current value |
| Facade.BindingRendersOnItsKey | packages/pinia/src/store.ts:156-185 | after a render that reads `k`, a commit to `k` re-renders the binding and a commit to a sibling does not |

## Left out

- React plumbing (`useSyncExternalStore`, `useRef`, `useCallback`): only the listener predicate and the clearing of the tracked set are modelled.
- The `snapshot` passed to `useSyncExternalStore` is not modelled: it only feeds React's change detection. As written it reads `$state` the same way the binding provider does, so it is `undefined` on every call.
- immer (`produce`, drafts, structural sharing) is a foreign library. The next state and the patch list are inputs to each commit.
- JavaScript Proxy mechanics and `console.warn` output: the traps are functions, and a refused write is a `false` result or a `TypeError`.
- Facade.AssignAsWritten: returns `None` for a nested write the value model has no slot for (an array's `length`, an index past the end, a non-index key on an array, or a path through a non-object), and takes the registry's entry to be the instance's state object when the two are equal, since object identity is not modelled.
- Store.PatchObject: immer compares a written value with the draft's by reference (`Object.is`), so a fresh object equal in structure to the current one still yields a patch and a commit in JavaScript; the model compares structurally and commits nothing for it.
- Facade.StoreRead: a getter's own exception is not modelled; the getter's result is a parameter, so a read that runs a throwing getter (`store.ts:127`) succeeds in the model and throws in JavaScript.
- Facade.BindingRead: likewise, a getter that throws inside the `get` trap is not modelled.
- Store.Emit: listeners cannot throw in the model. In the code a throwing listener stops `forEach` after the state has been committed, and the later listeners are not called.
- Subscription.TriggerSubscriptions: callbacks cannot throw in the model; a throwing callback would stop the remaining calls.
- Store.RunPlugins: a plugin function cannot throw in the model. In the code a throwing plugin aborts `getStore` after the instance state and the registry state are set, leaving the id out of the store map.
- Facade.PlainGet: `length` and index reads on a string count code points, not UTF-16 code units, so they differ from JavaScript for characters outside the Basic Multilingual Plane.
- Prototype chains: `k in obj` and `Reflect.get` see own properties only, so inherited names such as `toString` are not found on state, getters or actions.
- Own properties of functions (`name`, `length`) and own symbol-keyed properties are not modelled: a read of them gives `undefined`.
- Floating-point numbers and NaN: numbers are integers.
- Object identity and aliasing: `===` on objects is structural equality, and a nested proxy is not tied to later mutations of its target.
- JavaScript Map and Set iteration order for Map entries and Set members: they are a map and a set.
- The Map `size` accessor is not modelled.
- Removing or adding listeners while `forEach` runs, and re-entrant calls from listeners, getters, actions or plugins (for example a plugin calling `use` during the loop).
- `isRef` and `isReactive` (from `@maoism/runtime-core`) are taken to be false. savage-types `isObject` is taken to mean a plain object, and savage-utils `copyDeep` a value copy.
- `mergeReactiveObjects` and `reactiveMerge` with an array or a primitive as the top-level target or patch are not modelled: the callers pass objects.
- ReactiveMerge.ReactiveMerge: does not state in one clause what every key of `y` ends up holding, because that clause is too costly for the solver. `ObjectsMergeRecursively`, `ArrayIsCopied` and `OtherValueIsCopied` state it key by key.
- ReactiveMerge.ReactiveMerge: when it throws, the writes JavaScript made before the throw are not modelled; the result is the error alone.
- A state factory that returns different states on different calls: the factory's result is a parameter of each call.
- Two `defineStore` calls sharing one id: each closure is a separate `Store.Session`, and their interaction through the registry is not modelled.
- The `_opts` (`detached`) argument of `$subscribe` is ignored by the code and is not modelled.
- Getter caching, cycle detection, cross-store invalidation, action batching and devtools time travel: the repository's tests describe them, but `store.ts` does not implement them.
- `src/defineStore.ts` is not part of this model: it is built on a reactive runtime that is not available.
- Playgrounds, localStorage plugins, documentation, build configuration and type-only files.

## Findings

| source | as written | input that shows it | evidently intended | confidence | as-written member | corrected member |
|---|---|---|---|---|---|---|
| packages/pinia/src/store.ts:183 | the binding's state provider is `() => getStore().$state`, but `$state` is not one of the names the facade dispatches, so it reads `undefined`; the `get` trap's `k in state` then throws a TypeError for every key other than the four API names | `defineStore('c', { state: () => ({ count: 0 }) })`, then reading `count` from `useStore()` inside a component | the provider returns the instance's current state, so the read returns `0` and tracks `count` | high; not executed | Facade.BindingReadThrowsAsWritten | Facade.BindingReadTracksStateKeys |
| packages/pinia/src/store.ts:95-108 | the nested proxy built by `deepProxy` has a `get` trap only, so `store.user.name = 'x'` writes into the current state object: no commit, no patch and no listener call, so a binding that read `user.name` is not re-rendered | state `{ user: { name: 'a' } }`, then `store.user.name = 'x'` | nested writes are refused like top-level ones (the store is read-only), so the change goes through `$patch` and reaches every listener | medium; not executed | Facade.NestedWriteMissesListeners | Facade.CorrectedWriteKeepsPatchEffective |

=== FILE: facade.dfy ===
/**
 * The read facade of packages/pinia/src/store.ts (`createStoreProxy`): the
 * top-level `get` trap that dispatches a property name to the public API,
 * the state, the getters or the actions; the nested `deepProxy` that records
 * every path it is asked for; the refusing `set` trap; and what a binding
 * (`useStore`) reads and tracks during one render.
 *
 * A proxy is modelled as a `Handle`; a property read is a function returning
 * what the trap returns together with the paths passed to `onAccess`.
 */
module Facade {

  import opened Wrappers
  import opened Json
  import opened Paths
  import opened Store

  /** A JavaScript property key. */
  datatype PropKey = StrKey(name: string) | SymKey(description: string)

  /** `String(key)`: a symbol converts to `Symbol(description)` without throwing. */
  function KeyString(key: PropKey): (k: string)
    ensures key.StrKey? ==> k == key.name
    ensures key.SymKey? ==> |k| > 0 && k[0] == 'S' && k[|k| - 1] == ')'
  {
    match key
    case StrKey(n) => n
    case SymKey(d) => "Symbol(" + d + ")"
  }

  /** The four names the top-level trap answers before looking at the state. */
  const ApiNames: set<string> := {"$patch", "$reset", "$subscribe", "$dispose"}

  /** What a read hands back: a nested proxy over an object, or the raw value. */
  datatype Handle = Proxy(target: Value, path: seq<string>) | Raw(v: Value)

  /** What the top-level `get` trap returns. */
  datatype Read =
    | Api(name: string)
    | Got(handle: Handle)
      /** `getters[k].call(receiver, state)`: the getter runs now, on this state. */
    | GetterRun(name: string, state: Value)
    | BoundAction(name: string)

  /** A trap's result with the paths it reported to `onAccess`, in order. */
  datatype Access<T> = Access(result: Result<T>, recorded: seq<seq<string>>)

  /** An object value read at `path` is wrapped in a nested proxy; anything else is returned as is. */
  function Wrap(v: Value, path: seq<string>): (h: Handle)
    ensures h.Proxy? <==> IsObjectType(v)
    ensures h.Proxy? ==> h.target == v && h.path == path
    ensures h.Raw? ==> h.v == v
  {
    if IsObjectType(v) then Proxy(v, path) else Raw(v)
  }

  /**
   * The top-level `get` trap over the value `provided` by `stateProvider`.
   * `track` says whether an `onAccess` callback was given.
   */
  function TopRead(provided: Value, getters: set<string>, actions: set<string>, key: PropKey, track: bool)
    : (a: Access<Read>)
    ensures KeyString(key) in ApiNames ==> a == Access(Success(Api(KeyString(key))), [])
    // `k in state` throws on anything that is not an object or a function
    ensures a.result.Failure? <==>
      KeyString(key) !in ApiNames && !(IsObjectType(provided) || provided.Fn?)
    ensures a.result.Failure? ==> a.result.error == TypeError
    // only a state key is recorded, and only as a one-element path
    ensures a.recorded != [] ==> track && a.recorded == [[KeyString(key)]]
    ensures a.result.Success? && a.result.value.Got? && a.result.value.handle.Proxy? ==>
      a.result.value.handle.path == [KeyString(key)]
    ensures a.result.Success? && a.result.value.GetterRun? ==>
      a.result.value.state == provided && a.result.value.name in getters
    ensures a.result.Success? && a.result.value.BoundAction? ==> a.result.value.name in actions
  {
    var k := KeyString(key);
    if k in ApiNames then Access(Success(Api(k)), [])
    else if !(IsObjectType(provided) || provided.Fn?) then Access(Failure(TypeError), [])
    else if HasProperty(provided, k) then
      Access(Success(Got(Wrap(GetProperty(provided, k), [k]))), if track then [[k]] else [])
    else if k in getters then Access(Success(GetterRun(k, provided)), [])
    else if k in actions then Access(Success(BoundAction(k)), [])
    else Access(Success(Got(Raw(Undefined))), [])
  }

  /**
   * The nested `get` trap of `deepProxy(target, path)`: a symbol key is read
   * straight through (own symbol properties are not modelled, so it is
   * `undefined`); a string key reports `path + [key]` and wraps an object.
   */
  function DeepRead(target: Value, path: seq<string>, key: PropKey, track: bool): (a: Access<Handle>)
    requires IsObjectType(target)
    ensures a.result.Success?
    ensures key.SymKey? ==> a == Access(Success(Raw(Undefined)), [])
    ensures key.StrKey? ==>
      && a.recorded == (if track then [path + [key.name]] else [])
      && (a.result.value.Proxy? ==> a.result.value.path == path + [key.name])
      && (HasProps(target) && key.name in Props(target) && IsObjectType(Props(target)[key.name]) ==>
            a.result.value == Proxy(Props(target)[key.name], path + [key.name]))
  {
    match key
    case SymKey(_) => Access(Success(Raw(Undefined)), [])
    case StrKey(k) =>
      var cur := path + [k];
      Access(Success(Wrap(GetProperty(target, k), cur)), if track then [cur] else [])
  }

  /** A property read on a value that is not proxied: `undefined` and `null` throw, strings expose `length` and characters. */
  function PlainGet(v: Value, k: string): (r: Result<Value>)
    ensures r.Failure? <==> v.Undefined? || v.Null?
    ensures r.Failure? ==> r.error == TypeError
    ensures v.Str? && k == "length" ==> r == Success(Num(|v.s|))
  {
    match v
    case Undefined => Failure(TypeError)
    case Null => Failure(TypeError)
    case Str(s) =>
      if k == "length" then Success(Num(|s|))
      else
        var i := ArrayIndex(k, |s|);
        if i.Some? then Success(Str([s[i.value]])) else Success(Undefined)
    case Fn(_) => Success(Undefined)
    case Bool(_) => Success(Undefined)
    case Num(_) => Success(Undefined)
    case _ => Success(GetProperty(v, k))
  }

  /** One further `.k` on a handle. */
  function Step(h: Handle, k: string, track: bool): (a: Access<Handle>)
    ensures h.Raw? ==> a.recorded == []
    ensures h.Proxy? && IsObjectType(h.target) ==> a.result.Success?
  {
    match h
    case Proxy(t, p) =>
      if IsObjectType(t) then DeepRead(t, p, StrKey(k), track)
      else Access(Success(Raw(Undefined)), [])
    case Raw(v) =>
      var r := PlainGet(v, k);
      if r.Failure? then Access(Failure(r.error), []) else Access(Success(Raw(r.value)), [])
  }

  /** A chain of reads `h.k0.k1...`, stopping at the first one that throws. */
  function Follow(h: Handle, keys: seq<string>, track: bool): (a: Access<Handle>)
    decreases |keys|
  {
    if keys == [] then Access(Success(h), [])
    else
      var first := Step(h, keys[0], track);
      if first.result.Failure? then first
      else
        var rest := Follow(first.result.value, keys[1..], track);
        Access(rest.result, first.recorded + rest.recorded)
  }

  /** Every value met before the last key is an object, so the whole chain stays inside proxies. */
  predicate ObjectsAlong(v: Value, keys: seq<string>)
    requires IsObjectType(v)
    decreases |keys|
  {
    |keys| <= 1 || (IsObjectType(GetProperty(v, keys[0])) && ObjectsAlong(GetProperty(v, keys[0]), keys[1..]))
  }

  /**
   * A chain of reads through nested proxies reports, in order, the root path
   * of every property it reads; after it leaves the proxies it reports nothing.
   */
  lemma {:induction false} FollowRecordsRootPaths(h: Handle, keys: seq<string>, track: bool)
    ensures var rec := Follow(h, keys, track).recorded;
      && |rec| <= |keys|
      && (h.Raw? || !track ==> rec == [])
      && (h.Proxy? ==> forall i :: 0 <= i < |rec| ==> rec[i] == h.path + keys[..i + 1])
    decreases |keys|
  {
    if keys != [] {
      var first := Step(h, keys[0], track);
      if first.result.Success? {
        var next := first.result.value;
        FollowRecordsRootPaths(next, keys[1..], track);
        var rest := Follow(next, keys[1..], track).recorded;
        var rec := Follow(h, keys, track).recorded;
        assert rec == first.recorded + rest;
        if h.Proxy? && first.recorded != [] {
          assert first.recorded == [h.path + [keys[0]]];
          if rest != [] {
            assert next.Proxy? && next.path == h.path + [keys[0]];
            forall i | 1 <= i < |rec|
              ensures rec[i] == h.path + keys[..i + 1]
            {
              assert rec[i] == rest[i - 1];
              assert keys[1..][..i] == keys[1..i + 1];
              assert h.path + [keys[0]] + keys[1..i + 1] == h.path + keys[..i + 1];
            }
          }
          assert rec[0] == h.path + keys[..1];
        }
      }
    }
  }

  /** With tracking on and objects all along the way, every prefix of the chain is reported. */
  lemma {:induction false} FollowRecordsEveryPrefix(t: Value, path: seq<string>, keys: seq<string>)
    requires IsObjectType(t) && ObjectsAlong(t, keys)
    ensures var a := Follow(Proxy(t, path), keys, true);
      a.result.Success? && |a.recorded| == |keys|
    decreases |keys|
  {
    if keys != [] {
      var next := Wrap(GetProperty(t, keys[0]), path + [keys[0]]);
      assert Step(Proxy(t, path), keys[0], true) == Access(Success(next), [path + [keys[0]]]);
      if |keys| > 1 {
        FollowRecordsEveryPrefix(GetProperty(t, keys[0]), path + [keys[0]], keys[1..]);
      }
    }
  }

  /**
   * A binding reading `store.k.k1...kn` through objects reports exactly the
   * root prefixes `[k]`, `[k, k1]`, ..., `[k, k1, ..., kn]`.
   */
  lemma NestedReadRecordsPrefixes(cur: StateTree, getters: set<string>, actions: set<string>,
                                  k: string, keys: seq<string>)
    requires k !in ApiNames && k in cur && IsObjectType(cur[k]) && ObjectsAlong(cur[k], keys)
    ensures var top := TopRead(Obj(cur), getters, actions, StrKey(k), true);
      var rest := Follow(top.result.value.handle, keys, true);
      var rec := top.recorded + rest.recorded;
      && top.result == Success(Got(Proxy(cur[k], [k])))
      && rest.result.Success?
      && |rec| == |keys| + 1
      && forall i :: 0 <= i < |rec| ==> rec[i] == ([k] + keys)[..i + 1]
  {
    var top := TopRead(Obj(cur), getters, actions, StrKey(k), true);
    assert top.result == Success(Got(Proxy(cur[k], [k])));
    FollowRecordsRootPaths(Proxy(cur[k], [k]), keys, true);
    FollowRecordsEveryPrefix(cur[k], [k], keys);
    var rest := Follow(Proxy(cur[k], [k]), keys, true);
    var rec := top.recorded + rest.recorded;
    forall i | 0 <= i < |rec|
      ensures rec[i] == ([k] + keys)[..i + 1]
    {
      if i > 0 {
        assert rec[i] == rest.recorded[i - 1] == [k] + keys[..i];
        assert ([k] + keys)[..i + 1] == [k] + keys[..i];
      }
    }
  }

  /** A symbol key read through a nested proxy never reaches `onAccess`. */
  lemma SymbolReadRecordsNothing(t: Value, path: seq<string>, description: string)
    requires IsObjectType(t)
    ensures DeepRead(t, path, SymKey(description), true).recorded == []
  {
  }

  // ---------------------------------------------------------------------------
  // Dispatch order

  /** The public API names win over state keys, getters and actions of the same name. */
  lemma ApiNamesShadowEverything(cur: StateTree, getters: set<string>, actions: set<string>, name: string, track: bool)
    requires name in ApiNames
    ensures TopRead(Obj(cur), getters, actions, StrKey(name), track) == Access(Success(Api(name)), [])
  {
  }

  /** A state key wins over a getter or action of the same name; a getter wins over an action. */
  lemma StateThenGettersThenActions(cur: StateTree, getters: set<string>, actions: set<string>, k: string)
    requires k !in ApiNames
    ensures k in cur ==>
      TopRead(Obj(cur), getters, actions, StrKey(k), true) == Access(Success(Got(Wrap(cur[k], [k]))), [[k]])
    ensures k !in cur && k in getters ==>
      TopRead(Obj(cur), getters, actions, StrKey(k), true) == Access(Success(GetterRun(k, Obj(cur))), [])
    ensures k !in cur && k !in getters && k in actions ==>
      TopRead(Obj(cur), getters, actions, StrKey(k), true) == Access(Success(BoundAction(k)), [])
    ensures k !in cur && k !in getters && k !in actions ==>
      TopRead(Obj(cur), getters, actions, StrKey(k), true) == Access(Success(Got(Raw(Undefined))), [])
  {
  }

  // ---------------------------------------------------------------------------
  // The instance returned by getStore (no `onAccess`)

  function GettersOf(o: Options): set<string> {
    if o.getters.Some? then o.getters.value else {}
  }

  function ActionsOf(o: Options): set<string> {
    if o.actions.Some? then o.actions.value else {}
  }

  /** A read on the `storePublicApi` of instance `token`: the provider is `() => currentState`. */
  function StoreRead(s: Session, token: nat, key: PropKey): (a: Access<Read>)
    requires token < |s.instances|
    ensures a.recorded == []
    ensures a.result.Success?
  {
    TopRead(Obj(s.instances[token]), GettersOf(s.options), ActionsOf(s.options), key, false)
  }

  /**
   * Getters are not cached: a getter read after a commit runs on the
   * committed state, and a state key reads the committed value.
   */
  lemma ReadsSeeCommittedState(s: Session, token: nat, next: StateTree, patches: seq<Patch>, k: string)
    requires Valid(s) && token < |s.instances| && |patches| > 0 && k !in ApiNames
    ensures var o := InternalPatch(s, token, next, patches, false);
      && (k !in next && k in GettersOf(s.options) ==>
            StoreRead(o.session, token, StrKey(k)).result == Success(GetterRun(k, Obj(next))))
      && (k in next ==>
            StoreRead(o.session, token, StrKey(k)).result == Success(Got(Wrap(next[k], [k]))))
  {
  }

  // ---------------------------------------------------------------------------
  // Writes

  /** An assignment `h.key = value` made through the handle at `path` (`[]` is the store facade itself). */
  datatype Assignment = Assignment(path: seq<string>, key: string, value: Value)

  /**
   * An ordinary `[[Set]]` of an own property, where the value model has a
   * slot for it: any key of an object, Map or Set, and an existing or the
   * next index of an array.
   */
  function SetOwn(target: Value, k: string, v: Value): (r: Option<Value>)
    requires IsObjectType(target)
    ensures HasProps(target) ==> r.Some?
    ensures target.Arr? ==> (r.Some? <==> ArrayIndex(k, |target.items| + 1).Some?)
    ensures r.Some? ==> IsObjectType(r.value) && GetProperty(r.value, k) == v
    ensures r.Some? && HasProps(target) ==>
      HasProps(r.value) && Props(r.value) == Props(target)[k := v]
      && r.value.Obj? == target.Obj? && r.value.MapV? == target.MapV? && r.value.SetV? == target.SetV?
  {
    if HasProps(target) then Some(WithProps(target, Props(target)[k := v]))
    else
      var items := target.items;
      var i := ArrayIndex(k, |items| + 1);
      if i.None? then None
      else if i.value < |items| then Some(Arr(items[i.value := v]))
      else Some(Arr(items + [v]))
  }

  /** The object a handle's path leads to from `root`, if every step is an object. */
  function At(root: Value, path: seq<string>): (r: Option<Value>)
    requires IsObjectType(root)
    ensures r.Some? ==> IsObjectType(r.value)
    decreases |path|
  {
    if path == [] then Some(root)
    else
      var child := GetProperty(root, path[0]);
      if IsObjectType(child) then At(child, path[1..]) else None
  }

  /** `root` after writing `k := v` into the object at `path`, where the model has a slot for it. */
  function SetAt(root: Value, path: seq<string>, k: string, v: Value): (r: Option<Value>)
    requires IsObjectType(root)
    ensures r.Some? ==> IsObjectType(r.value) && r.value.Obj? == root.Obj?
    // the written property reads back as the written value
    ensures r.Some? ==> At(r.value, path).Some? && GetProperty(At(r.value, path).value, k) == v
    // the other top-level keys keep their values
    ensures r.Some? && HasProps(root) && path != [] ==>
      HasProps(r.value) && Props(r.value).Keys == Props(root).Keys + {path[0]}
      && forall q :: q in Props(root) && q != path[0] ==> Props(r.value)[q] == Props(root)[q]
    ensures HasProps(root) && path == [] ==> r.Some?
    decreases |path|
  {
    if path == [] then SetOwn(root, k, v)
    else
      var child := GetProperty(root, path[0]);
      if !IsObjectType(child) then None
      else
        var c := SetAt(child, path[1..], k, v);
        if c.None? then None else SetOwn(root, path[0], c.value)
  }

  /**
   * An assignment through the facade, as written. The store facade's `set`
   * trap refuses: strict-mode code then throws, other code sees the write
   * ignored. A nested proxy has no `set` trap, so the write lands in the
   * current state object itself: there is no commit, no patch and no
   * listener call. `None` is a write the value model has no slot for.
   */
  function AssignAsWritten(s: Session, token: nat, w: Assignment, strict: bool): (o: Option<Outcome<bool>>)
    requires Valid(s) && token < |s.instances|
    ensures w.path == [] ==>
      o == Some(Outcome(s, if strict then Failure(TypeError) else Success(false)))
    ensures o.Some? ==>
      && Valid(o.value.session)
      && o.value.session.listeners == s.listeners && o.value.session.nextHandle == s.nextHandle
      && o.value.session.id == s.id && o.value.session.pinia == s.pinia
      && |o.value.session.instances| == |s.instances|
    // a nested write is accepted and changes the instance's state in place
    ensures w.path != [] && o.Some? ==>
      && o.value.result == Success(true)
      && (forall t :: 0 <= t < |s.instances| && t != token ==> o.value.session.instances[t] == s.instances[t])
      && var after := Obj(o.value.session.instances[token]);
         At(after, w.path).Some? && GetProperty(At(after, w.path).value, w.key) == w.value
  {
    if w.path == [] then Some(Outcome(s, if strict then Failure(TypeError) else Success(false)))
    else
      var cur := s.instances[token];
      var r := SetAt(Obj(cur), w.path, w.key, w.value);
      if r.None? then None
      else
        var next := r.value.props;
        var p := PiniaOf(s);
        // the registry's entry is the same object as the instance's state
        var p1 := if s.id in p.state && p.state[s.id] == cur then p.(state := p.state[s.id := next]) else p;
        Some(Outcome(WithPinia(s, p1).(instances := s.instances[token := next]), Success(true)))
  }

  /** The evidently intended assignment: every level of the facade refuses, as the top-level trap does. */
  function AssignCorrected(s: Session, token: nat, w: Assignment, strict: bool): (o: Outcome<bool>)
    requires Valid(s) && token < |s.instances|
    ensures o.session == s
    ensures strict <==> o.result.Failure?
    ensures o.result.Success? ==> !o.result.value
  {
    Outcome(s, if strict then Failure(TypeError) else Success(false))
  }

  /** `{ user: { name: 'a' } }`, and the same after `store.user.name = 'x'`. */
  const UserA: StateTree := map["user" := Obj(map["name" := Str("a")])]
  const UserX: StateTree := map["user" := Obj(map["name" := Str("x")])]

  /**
   * As written, `store.user.name = 'x'` installs the state that
   * `$patch({ user: { name: 'x' } })` would commit, in the instance and in
   * the registry, but without a commit: the write is accepted and no
   * listener is called, so a binding that read `user.name` is not told.
   */
  lemma NestedWriteMissesListeners(s: Session, token: nat, strict: bool)
    requires Valid(s) && s.listeners.Some? && token < |s.instances| && s.instances[token] == UserA
    requires s.id in PiniaOf(s).state && PiniaOf(s).state[s.id] == UserA
    ensures var o := AssignAsWritten(s, token, Assignment(["user"], "name", Str("x")), strict);
      && o.Some?
      && o.value.result == Success(true)
      && o.value.session.instances[token] == ShallowAssign(UserA, UserX)
      && PiniaOf(o.value.session).state[s.id] == ShallowAssign(UserA, UserX)
      && o.value.session.listeners == s.listeners
  {
    var o := AssignAsWritten(s, token, Assignment(["user"], "name", Str("x")), strict);
    var inner := Obj(map["name" := Str("a")]);
    assert GetProperty(Obj(UserA), "user") == inner;
    assert map["name" := Str("a")]["name" := Str("x")] == map["name" := Str("x")];
    assert SetAt(inner, [], "name", Str("x")) == Some(Obj(map["name" := Str("x")]));
    assert UserA["user" := Obj(map["name" := Str("x")])] == UserX;
    assert SetAt(Obj(UserA), ["user"], "name", Str("x")) == Some(Obj(UserX));
    assert ShallowAssign(UserA, UserX) == UserX;
  }

  /**
   * With every level refusing, the same assignment leaves the state alone, so
   * the `$patch` that follows commits and every listener sees the change.
   */
  lemma CorrectedWriteKeepsPatchEffective(s: Session, token: nat, patches: seq<Patch>, strict: bool)
    requires Valid(s) && s.listeners.Some? && token < |s.instances| && s.instances[token] == UserA
    requires ImmerAssignPatches(UserA, UserX, patches)
    ensures var o := AssignCorrected(s, token, Assignment(["user"], "name", Str("x")), strict);
      var c := PatchObject(o.session, token, UserX, patches);
      && o.session.instances[token] == UserA
      && c.session.instances[token] == UserX
      && c.result.Success? && |c.result.value| == |s.listeners.value|
      && forall i :: 0 <= i < |c.result.value| ==> c.result.value[i].next == UserX
  {
    assert "a"[0] != "x"[0];
    assert Str("a") != Str("x");
    assert UserA["user"].props["name"] != UserX["user"].props["name"];
    assert KeyChanges(UserA, UserX, "user");
    assert ShallowAssign(UserA, UserX) == UserX;
  }

  /**
   * `if (ext) Object.assign(storePublicApi, ext)`: the first own enumerable
   * property goes through the refusing `set` trap, and `Object.assign`
   * throws on a refused write.
   */
  ghost function AssignExtension(cur: StateTree, ext: Value): (r: Result<StateTree>)
    ensures r.Success? ==> r.value == cur
    ensures r.Failure? ==> r.error == TypeError
  {
    if !Truthy(ext) then Success(cur)
    else
      var first: Option<(string, Value)> :=
        match ext
        case Str(s) => if |s| > 0 then Some(("0", Str([s[0]]))) else None
        case Arr(items) => if |items| > 0 then Some(("0", items[0])) else None
        case Obj(p) => FirstProp(p)
        case MapV(_, p) => FirstProp(p)
        case SetV(_, p) => FirstProp(p)
        case _ => None;
      if first.None? then Success(cur) else Failure(TypeError)
  }

  /** Some own property of a non-empty table (which one does not matter: every write is refused). */
  ghost function FirstProp(p: map<string, Value>): (r: Option<(string, Value)>)
    ensures r.Some? <==> |p| > 0
    ensures r.Some? ==> r.value.0 in p && p[r.value.0] == r.value.1
  {
    if |p| == 0 then None
    else
      var k :| k in p;
      Some((k, p[k]))
  }

  /** The plugin loop's `Object.assign` fails exactly when the store engine says an extension throws. */
  lemma AssignFailsIffExtensionThrows(cur: StateTree, ext: Value)
    ensures AssignExtension(cur, ext).Failure? <==> ExtensionThrows(ext)
  {
  }

  // ---------------------------------------------------------------------------
  // A binding's render

  /** `tracked.current`: the dotted paths a binding read during its latest render. */
  datatype Binding = Binding(tracked: set<string>)

  /** `tracked.current.clear()` at the start of each render. */
  function BeginRender(b: Binding): (r: Binding)
    ensures r.tracked == {}
  {
    Binding({})
  }

  /** The binding's `onAccess`: `tracked.current.add(path.join('.'))` for each reported path. */
  function RecordReads(b: Binding, rec: seq<seq<string>>): (r: Binding)
    ensures b.tracked <= r.tracked
    decreases |rec|
  {
    if rec == [] then b else RecordReads(Binding(b.tracked + {Join(rec[0])}), rec[1..])
  }

  /** After a render, the tracked set holds exactly the paths read in that render. */
  lemma {:induction false} RenderTracksOnlyItsReads(b: Binding, rec: seq<seq<string>>)
    ensures RecordReads(BeginRender(b), rec).tracked == Track(set i | 0 <= i < |rec| :: rec[i])
  {
    RecordReadsAdds(Binding({}), rec);
  }

  lemma {:induction false} RecordReadsAdds(b: Binding, rec: seq<seq<string>>)
    ensures RecordReads(b, rec).tracked == b.tracked + Track(set i | 0 <= i < |rec| :: rec[i])
    decreases |rec|
  {
    if rec != [] {
      RecordReadsAdds(Binding(b.tracked + {Join(rec[0])}), rec[1..]);
      var all := set i | 0 <= i < |rec| :: rec[i];
      var tail := set i | 0 <= i < |rec[1..]| :: rec[1..][i];
      assert all == {rec[0]} + tail by {
        forall q | q in all ensures q in {rec[0]} + tail {
          var i :| 0 <= i < |rec| && rec[i] == q;
          if i > 0 { assert rec[1..][i - 1] == q; }
        }
        forall q | q in tail ensures q in all {
          var i :| 0 <= i < |rec[1..]| && rec[1..][i] == q;
          assert rec[i + 1] == q;
        }
      }
      assert Track(all) == {Join(rec[0])} + Track(tail);
    }
  }

  // ---------------------------------------------------------------------------
  // The binding's state provider

  /**
   * The binding facade's provider as written, `() => getStore().$state`: a
   * read of `$state` on the registered instance, which is not one of the
   * dispatched names. A getter result and a function's identity are inputs.
   */
  function BindingStateAsWritten(cur: StateTree, getters: set<string>, actions: set<string>,
                                 runGetter: (string, Value) -> Value, fns: string -> nat): (v: Value)
    ensures "$state" !in cur && "$state" !in getters && "$state" !in actions ==> v == Undefined
    ensures "$state" in cur ==> v == cur["$state"]
  {
    var a := TopRead(Obj(cur), getters, actions, StrKey("$state"), false);
    match a.result
    case Failure(_) => Undefined
    case Success(r) =>
      match r
      case Api(n) => Fn(fns(n))
      case Got(h) => if h.Proxy? then h.target else h.v
      case GetterRun(n, st) => runGetter(n, st)
      case BoundAction(n) => Fn(fns(n))
  }

  /** A read on the binding facade as written. */
  function BindingReadAsWritten(cur: StateTree, getters: set<string>, actions: set<string>,
                                runGetter: (string, Value) -> Value, fns: string -> nat, key: PropKey)
    : (a: Access<Read>)
    ensures KeyString(key) in ApiNames ==> a.result.Success?
  {
    TopRead(BindingStateAsWritten(cur, getters, actions, runGetter, fns), getters, actions, key, true)
  }

  /**
   * As written, a store with no `$state` key, getter or action throws on
   * every binding read that is not an API name, and tracks nothing.
   */
  lemma BindingReadThrowsAsWritten(cur: StateTree, getters: set<string>, actions: set<string>,
                                   runGetter: (string, Value) -> Value, fns: string -> nat, key: PropKey)
    requires "$state" !in cur && "$state" !in getters && "$state" !in actions
    requires KeyString(key) !in ApiNames
    ensures BindingReadAsWritten(cur, getters, actions, runGetter, fns, key) == Access(Failure(TypeError), [])
  {
  }

  /** The concrete case: `useStore().count` on a store whose state is `{ count: 0 }`. */
  lemma CounterReadThrowsAsWritten(runGetter: (string, Value) -> Value, fns: string -> nat)
    ensures BindingReadAsWritten(map["count" := Num(0)], {}, {}, runGetter, fns, StrKey("count")).result
      == Failure(TypeError)
    ensures BindingRead(map["count" := Num(0)], {}, {}, StrKey("count"))
      == Access(Success(Got(Raw(Num(0)))), [["count"]])
  {
    BindingReadThrowsAsWritten(map["count" := Num(0)], {}, {}, runGetter, fns, StrKey("count"));
  }

  /** A read on the binding facade with the evidently intended provider, `() => currentState`. */
  function BindingRead(cur: StateTree, getters: set<string>, actions: set<string>, key: PropKey): (a: Access<Read>)
    ensures a.result.Success?
  {
    TopRead(Obj(cur), getters, actions, key, true)
  }

  /**
   * With the corrected provider, reading a state key returns its current
   * value and tracks exactly that key; a non-state read tracks nothing.
   */
  lemma BindingReadTracksStateKeys(cur: StateTree, getters: set<string>, actions: set<string>, k: string)
    requires k !in ApiNames
    ensures var a := BindingRead(cur, getters, actions, StrKey(k));
      && (k in cur <==> a.recorded == [[k]])
      && (k !in cur ==> a.recorded == [])
      && (k in cur ==> a.result == Success(Got(Wrap(cur[k], [k]))))
  {
  }

  /**
   * With the corrected provider, after a render that reads `k` the binding is
   * re-rendered by a commit touching `k` and not by one touching a sibling.
   */
  lemma BindingRendersOnItsKey(b: Binding, cur: StateTree, getters: set<string>, actions: set<string>,
                               k: string, other: string, v: Value)
    requires k !in ApiNames && k in cur && other != k
    requires DotFree([k]) && DotFree([other])
    ensures var a := BindingRead(cur, getters, actions, StrKey(k));
      var after := RecordReads(BeginRender(b), a.recorded);
      && ListenerFires(after.tracked, [Patch(Replace, [k], v)])
      && !ListenerFires(after.tracked, [Patch(Replace, [other], v)])
  {
    var a := BindingRead(cur, getters, actions, StrKey(k));
    RenderTracksOnlyItsReads(b, a.recorded);
    var seen := set i | 0 <= i < |a.recorded| :: a.recorded[i];
    assert seen == {[k]} by {
      assert a.recorded[0] == [k];
    }
    assert WellFormedReads(seen) by {
      SplitJoinRoundTrip([k]);
    }
    FiresIffRelated(seen, [Patch(Replace, [k], v)]);
    assert IsPrefix([k], [Patch(Replace, [k], v)][0].path);
    FiresIffRelated(seen, [Patch(Replace, [other], v)]);
  }
}

=== FILE: json.dfy ===
/**
 * JavaScript values as the store sees them: the state trees, patches and
 * plugin extensions of the library are all built from these.
 */
module Json {

  import opened Wrappers

  /** Scalars usable as `Map` keys and `Set` members. */
  datatype Prim = PUndefined | PNull | PBool(b: bool) | PNum(n: int) | PStr(s: string)

  datatype Value =
    | Undefined
    | Null
    | Bool(b: bool)
    | Num(n: int)
    | Str(s: string)
      /** A function object, known only by identity. */
    | Fn(fid: nat)
    | Arr(items: seq<Value>)
      /** An ordinary object (literal or class instance) with its own string-keyed properties. */
    | Obj(props: map<string, Value>)
    | MapV(entries: map<Prim, Value>, props: map<string, Value>)
    | SetV(members: set<Prim>, props: map<string, Value>)

  /** The library's `StateTree`: a record from string keys to values. */
  type StateTree = map<string, Value>

  /** `typeof v === 'object' && v !== null`. */
  predicate IsObjectType(v: Value) {
    v.Arr? || v.Obj? || v.MapV? || v.SetV?
  }

  /** Values carrying a string-keyed property table in this model. */
  predicate HasProps(v: Value) {
    v.Obj? || v.MapV? || v.SetV?
  }

  function Props(v: Value): map<string, Value>
    requires HasProps(v)
  {
    match v
    case Obj(p) => p
    case MapV(_, p) => p
    case SetV(_, p) => p
  }

  function WithProps(v: Value, p: map<string, Value>): (r: Value)
    requires HasProps(v)
    ensures HasProps(r) && Props(r) == p
    ensures r.Obj? == v.Obj? && r.MapV? == v.MapV? && r.SetV? == v.SetV?
    ensures r.MapV? ==> r.entries == v.entries
    ensures r.SetV? ==> r.members == v.members
  {
    match v
    case Obj(_) => Obj(p)
    case MapV(e, _) => MapV(e, p)
    case SetV(m, _) => SetV(m, p)
  }

  /**
   * `isPlainObject` (packages/pinia/src/utils.ts and src/utils.ts): a truthy
   * object whose tag is `[object Object]` and whose `toJSON` is not a function.
   */
  predicate IsPlainObject(v: Value)
    ensures IsPlainObject(v) ==> v.Obj?
    ensures v.Obj? && "toJSON" !in v.props ==> IsPlainObject(v)
    ensures v.Obj? && "toJSON" in v.props && v.props["toJSON"].Fn? ==> !IsPlainObject(v)
  {
    v.Obj? && !("toJSON" in v.props && v.props["toJSON"].Fn?)
  }

  /** JavaScript truthiness (numbers are integers here, so NaN does not arise). */
  predicate Truthy(v: Value) {
    match v
    case Undefined => false
    case Null => false
    case Bool(b) => b
    case Num(n) => n != 0
    case Str(s) => s != ""
    case _ => true
  }

  /** Whether `Object.assign(target, v)` would copy at least one own enumerable property. */
  predicate HasOwnEnumerable(v: Value) {
    match v
    case Str(s) => |s| > 0
    case Arr(items) => |items| > 0
    case Obj(p) => |p| > 0
    case MapV(_, p) => |p| > 0
    case SetV(_, p) => |p| > 0
    case _ => false
  }

  function DigitChar(d: nat): (c: char)
    requires d < 10
    ensures '0' <= c <= '9' && c as int - '0' as int == d
  {
    (48 + d) as char
  }

  /** `String(i)` for an array index. */
  function IndexKey(i: nat): (s: string)
    ensures |s| > 0
    ensures forall j :: 0 <= j < |s| ==> '0' <= s[j] <= '9'
    ensures i >= 10 ==> |s| >= 2
    decreases i
  {
    if i < 10 then [DigitChar(i)] else IndexKey(i / 10) + [DigitChar(i % 10)]
  }

  /** Distinct indices have distinct keys. */
  lemma {:induction false} IndexKeyInjective(a: nat, b: nat)
    ensures IndexKey(a) == IndexKey(b) ==> a == b
    decreases a
  {
    if IndexKey(a) == IndexKey(b) && a >= 10 && b >= 10 {
      var ka, kb := IndexKey(a), IndexKey(b);
      assert IndexKey(a / 10) == ka[..|ka| - 1] == kb[..|kb| - 1] == IndexKey(b / 10);
      IndexKeyInjective(a / 10, b / 10);
      assert DigitChar(a % 10) == ka[|ka| - 1] == kb[|kb| - 1] == DigitChar(b % 10);
      DivMod(a);
      DivMod(b);
    }
  }

  lemma DivMod(a: nat)
    ensures a == 10 * (a / 10) + a % 10
  {
  }

  lemma IndexKeysInjective()
    ensures forall a: nat, b: nat :: IndexKey(a) == IndexKey(b) ==> a == b
  {
    forall a: nat, b: nat
      ensures IndexKey(a) == IndexKey(b) ==> a == b
    {
      IndexKeyInjective(a, b);
    }
  }

  /** The array index a property key denotes below `n`, if any. */
  function ArrayIndex(k: string, n: nat): (r: Option<nat>)
    ensures r.Some? ==> r.value < n && IndexKey(r.value) == k
    ensures r.None? ==> forall i :: 0 <= i < n ==> IndexKey(i) != k
  {
    if n == 0 then None
    else
      var earlier := ArrayIndex(k, n - 1);
      if earlier.Some? then earlier
      else if IndexKey(n - 1) == k then Some(n - 1)
      else None
  }

  /** `k in v` for an object, ignoring properties inherited from prototypes. */
  predicate HasProperty(v: Value, k: string)
    requires IsObjectType(v) || v.Fn?
  {
    match v
    case Arr(items) => k == "length" || ArrayIndex(k, |items|).Some?
    case Fn(_) => false
    case _ => k in Props(v)
  }

  /** `Reflect.get(v, k)` for an own property; `undefined` otherwise. */
  function GetProperty(v: Value, k: string): (r: Value)
    requires IsObjectType(v) || v.Fn?
    ensures !HasProperty(v, k) ==> r == Undefined
    ensures HasProps(v) && k in Props(v) ==> r == Props(v)[k]
    ensures v.Arr? && k == "length" ==> r == Num(|v.items|)
    ensures v.Arr? ==> forall i :: 0 <= i < |v.items| && k == IndexKey(i) ==> r == v.items[i]
  {
    IndexKeysInjective();
    assert "length"[0] == 'l';
    match v
    case Arr(items) =>
      if k == "length" then Num(|items|)
      else
        var i := ArrayIndex(k, |items|);
        if i.Some? then items[i.value] else Undefined
    case Fn(_) => Undefined
    case _ => if k in Props(v) then Props(v)[k] else Undefined
  }
}

=== FILE: merge.dfy ===
/**
 * `mergeReactiveObjects` (packages/pinia/src/utils.ts and the identical copy in
 * src/utils.ts): merges a patch into a target object, Map or Set, recursing
 * only where both sides hold plain objects under a key the target owns.
 */
module Merge {

  import opened Json

  /** The Map and Set steps that run before the key loop. */
  function MergeCollections(target: Value, patch: Value): (r: Value)
    requires HasProps(target) && HasProps(patch)
    ensures HasProps(r) && Props(r) == Props(target)
    ensures r.Obj? == target.Obj? && r.MapV? == target.MapV? && r.SetV? == target.SetV?
  {
    if target.MapV? && patch.MapV? then MapV(target.entries + patch.entries, target.props)
    else if target.SetV? && patch.SetV? then SetV(target.members + patch.members, target.props)
    else target
  }

  /** Whether the key loop recurses into key `k` instead of overwriting it. */
  predicate Recurses(t: map<string, Value>, p: map<string, Value>, k: string) {
    k in t && k in p && IsPlainObject(t[k]) && IsPlainObject(p[k])
  }

  function MergeReactiveObjects(target: Value, patch: Value): (r: Value)
    requires HasProps(target) && HasProps(patch)
    // the result is the target object itself: same kind
    ensures HasProps(r)
    ensures r.Obj? == target.Obj? && r.MapV? == target.MapV? && r.SetV? == target.SetV?
    ensures IsPlainObject(target) && IsPlainObject(patch) ==> IsPlainObject(r)
    // keys of the patch are added, none are removed
    ensures Props(r).Keys == Props(target).Keys + Props(patch).Keys
    // a key the patch does not mention is left alone
    ensures forall k :: k in Props(target) && k !in Props(patch) ==> Props(r)[k] == Props(target)[k]
    // arrays, primitives, non-plain objects and keys the target lacks are overwritten wholesale
    ensures forall k :: k in Props(patch) && !Recurses(Props(target), Props(patch), k) ==>
      Props(r)[k] == Props(patch)[k]
    // two plain objects are merged, so nested keys the patch does not mention survive
    ensures forall k :: Recurses(Props(target), Props(patch), k) ==>
      && Props(r)[k].Obj?
      && Props(r)[k].props.Keys == Props(target)[k].props.Keys + Props(patch)[k].props.Keys
      && forall k2 :: k2 in Props(target)[k].props && k2 !in Props(patch)[k].props ==>
           Props(r)[k].props[k2] == Props(target)[k].props[k2]
    // a Map patch sets each of its entries on a Map target; other entries stay
    ensures r.MapV? && patch.MapV? ==>
      && r.entries.Keys == target.entries.Keys + patch.entries.Keys
      && (forall e :: e in patch.entries ==> r.entries[e] == patch.entries[e])
      && (forall e :: e in target.entries && e !in patch.entries ==> r.entries[e] == target.entries[e])
    ensures r.MapV? && !patch.MapV? ==> r.entries == target.entries
    // a Set patch onto a Set target yields the union
    ensures r.SetV? ==> r.members == target.members + (if patch.SetV? then patch.members else {})
    decreases patch
  {
    var base := MergeCollections(target, patch);
    var t := Props(target);
    var p := Props(patch);
    WithProps(base, map k | k in t.Keys + p.Keys ::
      if k in p then
        if Recurses(t, p, k) then MergeReactiveObjects(t[k], p[k]) else p[k]
      else t[k])
  }

  /** An empty patch leaves the target as it was. */
  lemma MergeEmptyPatch(target: Value)
    requires HasProps(target)
    ensures MergeReactiveObjects(target, Obj(map[])) == target
  {
    var r := MergeReactiveObjects(target, Obj(map[]));
    assert Props(r) == Props(target);
  }

  /** Merging a value into itself changes nothing. */
  lemma {:induction false} MergeSelf(v: Value)
    requires HasProps(v)
    ensures MergeReactiveObjects(v, v) == v
    decreases v
  {
    var r := MergeReactiveObjects(v, v);
    var p := Props(v);
    forall k | k in p && Recurses(p, p, k)
      ensures MergeReactiveObjects(p[k], p[k]) == p[k]
    {
      MergeSelf(p[k]);
    }
    assert Props(r) == p;
  }

  /** Applying the same patch twice is the same as applying it once. */
  lemma {:induction false} MergeIdempotent(target: Value, patch: Value)
    requires HasProps(target) && HasProps(patch)
    ensures MergeReactiveObjects(MergeReactiveObjects(target, patch), patch) == MergeReactiveObjects(target, patch)
    decreases patch
  {
    var once := MergeReactiveObjects(target, patch);
    var twice := MergeReactiveObjects(once, patch);
    var t := Props(target);
    var p := Props(patch);
    var o := Props(once);
    forall k | k in p
      ensures Props(twice)[k] == o[k]
    {
      if Recurses(t, p, k) {
        MergeIdempotent(t[k], p[k]);
        assert Recurses(o, p, k);
      } else if Recurses(o, p, k) {
        MergeSelf(p[k]);
      }
    }
    assert Props(twice) == o;
  }
}

=== FILE: ordered_set.dfy ===
/**
 * A JavaScript `Set` as an insertion-ordered sequence without duplicates:
 * `add` appends an absent element, `delete` removes it, `forEach` visits in
 * insertion order.
 */
module OrderedSet {

  predicate Distinct<T(==)>(s: seq<T>) {
    forall i, j :: 0 <= i < j < |s| ==> s[i] != s[j]
  }

  /** `set.add(x)`: a present element leaves the set as it was. */
  function Add<T(==,!new)>(s: seq<T>, x: T): (r: seq<T>)
    requires Distinct(s)
    ensures Distinct(r)
    ensures x in r
    ensures forall y :: y in r <==> y in s || y == x
    ensures x in s ==> r == s
    ensures x !in s ==> r == s + [x]
  {
    if x in s then s else s + [x]
  }

  /** Where `x` sits in the sequence. */
  function IndexOf<T(==)>(s: seq<T>, x: T): (i: nat)
    requires x in s
    ensures i < |s| && s[i] == x && x !in s[..i]
  {
    if s[0] == x then 0
    else
      var j := IndexOf(s[1..], x);
      assert s[..j + 1] == [s[0]] + s[1..][..j];
      j + 1
  }

  /** `set.delete(x)`: `x` is cut out and every other element keeps its relative order. */
  function Delete<T(==,!new)>(s: seq<T>, x: T): (r: seq<T>)
    requires Distinct(s)
    ensures Distinct(r)
    ensures forall y :: y in r <==> y in s && y != x
    ensures x !in s ==> r == s
    ensures |r| == if x in s then |s| - 1 else |s|
    ensures x in s ==> exists i :: 0 <= i < |s| && s[i] == x && r == s[..i] + s[i + 1..]
  {
    if x !in s then s
    else
      var i := IndexOf(s, x);
      var r := s[..i] + s[i + 1..];
      assert forall k :: 0 <= k < |r| ==> r[k] == if k < i then s[k] else s[k + 1];
      assert forall y :: y in r <==> y in s && y != x by {
        forall y ensures y in r <==> y in s && y != x {
          if y in s && y != x {
            var k :| 0 <= k < |s| && s[k] == y;
            assert k != i;
            if k < i { assert r[k] == y; } else { assert r[k - 1] == y; }
          }
        }
      }
      r
  }
}

=== FILE: paths.dfy ===
/**
 * State paths, immer patches, and the re-render filter of the `useStore`
 * binding (packages/pinia/src/store.ts, `useStore`). A binding keeps the paths
 * it read as `'.'`-joined strings and splits them back when a commit arrives.
 */
module Paths {

  import opened Json

  datatype PatchOp = Add | Replace | Remove

  /** One elementary change reported by immer; its path is already stringified (`p.path.map(String)`). */
  datatype Patch = Patch(op: PatchOp, path: seq<string>, value: Value)

  /** `path.join('.')`. */
  function Join(p: seq<string>): (r: string)
    ensures |p| == 0 ==> r == ""
    // the first key comes first, followed by the separator when more keys follow
    ensures |p| > 0 ==> |p[0]| <= |r| && r[..|p[0]|] == p[0]
    ensures |p| > 1 ==> |p[0]| < |r| && r[|p[0]|] == '.'
  {
    if |p| == 0 then ""
    else if |p| == 1 then p[0]
    else p[0] + "." + Join(p[1..])
  }

  /** `s.split('.')`: every dot separates two (possibly empty) pieces. */
  function Split(s: string): (r: seq<string>)
    ensures |r| >= 1
  {
    if s == [] then [""]
    else
      var rest := Split(s[1..]);
      if s[0] == '.' then [""] + rest
      else [[s[0]] + rest[0]] + rest[1..]
  }

  function DotCount(s: string): nat
  {
    if s == [] then 0 else (if s[0] == '.' then 1 else 0) + DotCount(s[1..])
  }

  /** No key on the path contains the separator. */
  predicate DotFree(p: seq<string>) {
    forall i :: 0 <= i < |p| ==> '.' !in p[i]
  }

  lemma {:induction false} DotCountAppend(a: string, b: string)
    ensures DotCount(a + b) == DotCount(a) + DotCount(b)
    decreases |a|
  {
    if a != [] {
      assert (a + b)[1..] == a[1..] + b;
      DotCountAppend(a[1..], b);
    } else {
      assert a + b == b;
    }
  }

  lemma {:induction false} DotCountZero(s: string)
    ensures DotCount(s) == 0 <==> '.' !in s
    decreases |s|
  {
    if s != [] {
      DotCountZero(s[1..]);
      assert s == [s[0]] + s[1..];
    }
  }

  /** `split` yields one piece more than there are dots. */
  lemma {:induction false} SplitLength(s: string)
    ensures |Split(s)| == DotCount(s) + 1
    decreases |s|
  {
    if s != [] {
      SplitLength(s[1..]);
    }
  }

  /** Joining the pieces of a split gives the string back. */
  lemma {:induction false} JoinSplit(s: string)
    ensures Join(Split(s)) == s
    decreases |s|
  {
    if s != [] {
      var rest := Split(s[1..]);
      JoinSplit(s[1..]);
      if s[0] == '.' {
        assert Split(s) == [""] + rest;
        assert (Split(s))[1..] == rest;
        assert Join(Split(s)) == "" + "." + Join(rest);
        assert s == [s[0]] + s[1..];
      } else {
        var first := [s[0]] + rest[0];
        var r := [first] + rest[1..];
        assert Split(s) == r;
        if |rest| == 1 {
          assert Join(r) == first;
          assert Join(rest) == rest[0];
        } else {
          assert r[1..] == rest[1..];
          assert Join(r) == first + "." + Join(rest[1..]);
          assert Join(rest) == rest[0] + "." + Join(rest[1..]);
        }
        assert s == [s[0]] + s[1..];
      }
    }
  }

  /** A dot-free key followed by a dot splits off as one piece. */
  lemma {:induction false} SplitDotFreeHead(a: string, t: string)
    requires '.' !in a
    ensures Split(a + "." + t) == [a] + Split(t)
    decreases |a|
  {
    if a == [] {
      assert a + "." + t == ['.'] + t;
      assert (['.'] + t)[1..] == t;
    } else {
      assert (a + "." + t)[1..] == a[1..] + "." + t;
      SplitDotFreeHead(a[1..], t);
      assert a == [a[0]] + a[1..];
    }
  }

  lemma {:induction false} SplitDotFree(a: string)
    requires '.' !in a
    ensures Split(a) == [a]
    decreases |a|
  {
    if a != [] {
      SplitDotFree(a[1..]);
      assert a == [a[0]] + a[1..];
    }
  }

  lemma {:induction false} DotCountJoin(p: seq<string>)
    requires |p| > 0
    ensures DotCount(Join(p)) >= |p| - 1
    ensures !DotFree(p) ==> DotCount(Join(p)) >= |p|
    decreases |p|
  {
    if |p| == 1 {
      if !DotFree(p) {
        DotCountZero(p[0]);
      }
    } else {
      var rest := Join(p[1..]);
      DotCountJoin(p[1..]);
      assert Join(p) == p[0] + ("." + rest);
      DotCountAppend(p[0], "." + rest);
      DotCountAppend(".", rest);
      assert DotCount(".") == 1;
      DotCountZero(p[0]);
      if !DotFree(p) {
        if '.' !in p[0] {
          var i :| 0 <= i < |p| && '.' in p[i];
          assert p[1..][i - 1] == p[i];
        }
      }
    }
  }

  /**
   * The encoding a binding uses for tracked paths round-trips exactly for
   * non-empty paths whose keys contain no `'.'`.
   */
  lemma {:induction false} SplitJoinRoundTrip(p: seq<string>)
    ensures Split(Join(p)) == p <==> |p| > 0 && DotFree(p)
    decreases |p|
  {
    if |p| == 0 {
      assert Split(Join(p)) == [""];
    } else if !DotFree(p) {
      DotCountJoin(p);
      SplitLength(Join(p));
    } else if |p| == 1 {
      SplitDotFree(p[0]);
    } else {
      assert DotFree(p[1..]) by {
        forall i | 0 <= i < |p[1..]| ensures '.' !in p[1..][i] {
          assert p[1..][i] == p[i + 1];
        }
      }
      SplitJoinRoundTrip(p[1..]);
      SplitDotFreeHead(p[0], Join(p[1..]));
      assert p == [p[0]] + p[1..];
    }
  }

  /** The inner loop of the listener: the two paths agree on every index below the shorter length. */
  predicate Agrees(a: seq<string>, b: seq<string>) {
    forall i :: 0 <= i < |a| && i < |b| ==> a[i] == b[i]
  }

  predicate IsPrefix(a: seq<string>, b: seq<string>) {
    |a| <= |b| && a == b[..|a|]
  }

  /** Agreement up to the shorter length means one path is an ancestor of (or equal to) the other. */
  lemma AgreesIffPrefix(a: seq<string>, b: seq<string>)
    ensures Agrees(a, b) <==> IsPrefix(a, b) || IsPrefix(b, a)
  {
    if Agrees(a, b) {
      if |a| <= |b| {
        assert a == b[..|a|];
      } else {
        assert b == a[..|b|];
      }
    }
  }

  /** The listener's loop, as written (packages/pinia/src/store.ts:163-165). */
  method AgreeLoop(pp: seq<string>, tp: seq<string>) returns (r: bool)
    ensures r <==> IsPrefix(pp, tp) || IsPrefix(tp, pp)
  {
    var len := if |pp| < |tp| then |pp| else |tp|;
    var i := 0;
    while i < len
      invariant 0 <= i <= len
      invariant forall j :: 0 <= j < i ==> pp[j] == tp[j]
    {
      if pp[i] != tp[i] {
        AgreesIffPrefix(pp, tp);
        return false;
      }
      i := i + 1;
    }
    AgreesIffPrefix(pp, tp);
    return true;
  }

  /**
   * The `useStore` listener predicate: with a non-empty tracked set, a commit
   * requests a re-render iff some patch path agrees with some split tracked path.
   */
  predicate ListenerFires(tracked: set<string>, patches: seq<Patch>)
    ensures ListenerFires(tracked, patches) ==> tracked != {} && |patches| > 0
  {
    if tracked == {} then false
    else exists i, t :: 0 <= i < |patches| && t in tracked && Agrees(patches[i].path, Split(t))
  }

  /** What a render leaves in the tracked set after recording `seen`. */
  function Track(seen: set<seq<string>>): set<string>
  {
    set q | q in seen :: Join(q)
  }

  predicate WellFormedReads(seen: set<seq<string>>) {
    forall q :: q in seen ==> |q| > 0 && DotFree(q)
  }

  /**
   * With keys free of `'.'`, the join/split encoding is transparent: a commit
   * re-renders iff some patch path is an ancestor, a descendant or equal to some
   * path read during the last render.
   */
  lemma FiresIffRelated(seen: set<seq<string>>, patches: seq<Patch>)
    requires WellFormedReads(seen)
    ensures ListenerFires(Track(seen), patches) <==>
      exists i, q :: 0 <= i < |patches| && q in seen &&
        (IsPrefix(patches[i].path, q) || IsPrefix(q, patches[i].path))
  {
    var tracked := Track(seen);
    if ListenerFires(tracked, patches) {
      var i, t :| 0 <= i < |patches| && t in tracked && Agrees(patches[i].path, Split(t));
      var q :| q in seen && Join(q) == t;
      SplitJoinRoundTrip(q);
      AgreesIffPrefix(patches[i].path, q);
    }
    if exists i, q :: 0 <= i < |patches| && q in seen &&
        (IsPrefix(patches[i].path, q) || IsPrefix(q, patches[i].path)) {
      var i, q :| 0 <= i < |patches| && q in seen &&
        (IsPrefix(patches[i].path, q) || IsPrefix(q, patches[i].path));
      SplitJoinRoundTrip(q);
      AgreesIffPrefix(patches[i].path, q);
      assert Join(q) in tracked;
    }
  }

  /** A root patch (a replacement of the whole state) re-renders every binding that read anything. */
  lemma RootPatchFires(tracked: set<string>, patches: seq<Patch>, i: nat)
    requires tracked != {} && i < |patches| && patches[i].path == []
    ensures ListenerFires(tracked, patches)
  {
    var t :| t in tracked;
    assert Agrees(patches[i].path, Split(t));
  }

  /** A binding that read nothing never re-renders. */
  lemma EmptyTrackedNeverFires(patches: seq<Patch>)
    ensures !ListenerFires({}, patches)
  {
  }

  /** A patch on a sibling key of the only path read does not re-render. */
  lemma SiblingPatchDoesNotFire(parent: seq<string>, read: string, written: string, rest: seq<string>, v: Value)
    requires read != written
    requires DotFree(parent) && '.' !in read
    ensures !ListenerFires(Track({parent + [read]}), [Patch(Replace, parent + [written] + rest, v)])
  {
    var q := parent + [read];
    var pp := parent + [written] + rest;
    assert WellFormedReads({q}) by {
      forall x | x in {q} ensures |x| > 0 && DotFree(x) {
        assert forall i :: 0 <= i < |q| ==> q[i] == (if i < |parent| then parent[i] else read);
      }
    }
    FiresIffRelated({q}, [Patch(Replace, pp, v)]);
    assert pp[|parent|] == written && q[|parent|] == read;
  }

  /**
   * A key containing `'.'` breaks the encoding: a binding that read key
   * `"a.b"` is not re-rendered by a patch on that very key.
   */
  lemma DottedKeyChangeMissed(v: Value)
    ensures !ListenerFires(Track({["a.b"]}), [Patch(Replace, ["a.b"], v)])
  {
    assert Track({["a.b"]}) == {"a.b"};
    SplitDotFree("b");
    SplitDotFreeHead("a", "b");
    assert "a" + "." + "b" == "a.b";
  }

  /** ... and a patch on the unrelated key `"a"` re-renders it. */
  lemma DottedKeySpuriousRender(v: Value)
    ensures ListenerFires(Track({["a.b"]}), [Patch(Replace, ["a"], v)])
  {
    assert Track({["a.b"]}) == {"a.b"};
    SplitDotFree("b");
    SplitDotFreeHead("a", "b");
    assert "a" + "." + "b" == "a.b";
    var ps := [Patch(Replace, ["a"], v)];
    assert Agrees(ps[0].path, Split("a.b"));
    assert "a.b" in Track({["a.b"]});
  }
}

=== FILE: reactive_merge.dfy ===
/**
 * `reactiveMerge(x, y, clear)` of src/utils.ts: copies `y` into the object `x`
 * key by key, optionally deleting the keys of `x` that `y` lacks first.
 * Objects are merged recursively with the same `clear` flag, arrays are copied
 * slot by slot into `x[k]`, and everything else is deep-copied.
 */
module ReactiveMerge {

  import opened Wrappers
  import opened Json

  /** savage-types `isObject`, taken to mean a plain object record. */
  predicate IsObject(v: Value) {
    v.Obj?
  }

  /** The keys `String(i)` for `i` in `0 .. n-1`. */
  function IndexKeys(n: nat): (r: set<string>)
    ensures forall i :: 0 <= i < n ==> IndexKey(i) in r
    ensures "length" !in r
  {
    if n == 0 then {}
    else
      assert IndexKey(n - 1)[0] != 'l';
      IndexKeys(n - 1) + {IndexKey(n - 1)}
  }

  /** `p` with `IndexKey(i) := items[i]` assigned for `i` in `0 .. n-1`, in order. */
  function AssignIndices(p: map<string, Value>, items: seq<Value>, n: nat): (r: map<string, Value>)
    requires n <= |items|
    ensures r.Keys == p.Keys + IndexKeys(n)
    ensures forall k :: k in p && k !in IndexKeys(n) ==> r[k] == p[k]
    ensures forall i :: 0 <= i < n ==> IndexKey(i) in r && r[IndexKey(i)] == items[i]
  {
    IndexKeysInjective();
    if n == 0 then p else AssignIndices(p, items, n - 1)[IndexKey(n - 1) := items[n - 1]]
  }

  /**
   * The array branch: `x[k] = []` when `x[k]` is undefined, then
   * `x[k].length = y[k].length` and `x[k][i] = y[k][i]` for every index.
   * Module code is strict, so writing `length` onto null, a primitive or a
   * function (whose `length` is read-only) throws a TypeError.
   */
  function ArrayInto(xv: Value, items: seq<Value>): (r: Result<Value>)
    ensures (xv.Undefined? || xv.Arr?) ==> r == Success(Arr(items))
    ensures r.Failure? <==> xv.Null? || xv.Bool? || xv.Num? || xv.Str? || xv.Fn?
    ensures HasProps(xv) ==>
      && r.Success? && HasProps(r.value)
      && "length" in Props(r.value) && Props(r.value)["length"] == Num(|items|)
      && (forall i :: 0 <= i < |items| ==> IndexKey(i) in Props(r.value) && Props(r.value)[IndexKey(i)] == items[i])
  {
    var base := if xv.Undefined? then Arr([]) else xv;
    match base
    case Arr(_) => Success(Arr(items))
    case Obj(p) => Success(Obj(AssignIndices(p["length" := Num(|items|)], items, |items|)))
    case MapV(e, p) => Success(MapV(e, AssignIndices(p["length" := Num(|items|)], items, |items|)))
    case SetV(m, p) => Success(SetV(m, AssignIndices(p["length" := Num(|items|)], items, |items|)))
    case _ => Failure(TypeError)
  }

  /** What the loop body leaves under key `k` of `x0`; `None` means the key stays absent. */
  function Slot(x0: map<string, Value>, k: string, yv: Value, clear: bool): (r: Result<Option<Value>>)
    decreases yv, 1
  {
    var xv := if k in x0 then x0[k] else Undefined;
    if xv == yv then Success(if k in x0 then Some(xv) else None)
    else if IsObject(yv) && IsObject(xv) then
      var sub := ReactiveMerge(xv.props, yv.props, clear);
      if sub.Failure? then Failure(sub.error) else Success(Some(Obj(sub.value)))
    else if yv.Arr? then
      var a := ArrayInto(xv, yv.items);
      if a.Failure? then Failure(a.error) else Success(Some(a.value))
    else Success(Some(yv))
  }

  /** The keys left in `x` after the `clear` step. */
  function Cleared(x: map<string, Value>, y: map<string, Value>, clear: bool): (x0: map<string, Value>)
    ensures x0.Keys <= x.Keys
    ensures forall k :: k in x0 ==> x0[k] == x[k]
    ensures clear ==> x0.Keys == x.Keys * y.Keys
    ensures !clear ==> x0 == x
  {
    if clear then map k | k in x && k in y :: x[k] else x
  }

  /** The result of `reactiveMerge(x, y, clear)` as the new contents of `x`, or the TypeError it throws. */
  function ReactiveMerge(x: map<string, Value>, y: map<string, Value>, clear: bool): (r: Result<map<string, Value>>)
    // with clear, every key of x that y lacks is gone
    ensures r.Success? && clear ==> r.value.Keys <= y.Keys
    // without clear, keys of x that y lacks survive untouched
    ensures r.Success? && !clear ==> forall k :: k in x && k !in y ==> k in r.value && r.value[k] == x[k]
    ensures r.Success? ==> r.value.Keys <= x.Keys + y.Keys
    // a key whose values are already identical is skipped
    ensures r.Success? ==> forall k :: k in y && k in x && x[k] == y[k] ==> k in r.value && r.value[k] == x[k]
    ensures r.Success? ==> forall k :: k in y && k !in x && y[k] == Undefined ==> k !in r.value
    // an array cannot be written into null, a primitive or a function
    ensures (exists k :: (k in y && y[k].Arr? && k in Cleared(x, y, clear) &&
      (x[k].Null? || x[k].Bool? || x[k].Num? || x[k].Str? || x[k].Fn?))) ==> r.Failure?
    decreases Obj(y), 0
  {
    var x0 := Cleared(x, y, clear);
    if exists k :: k in y && Slot(x0, k, y[k], clear).Failure? then
      Failure(TypeError)
    else
      Success(map k | k in x0.Keys + y.Keys && (k in y ==> Slot(x0, k, y[k], clear).value.Some?) ::
        if k in y then Slot(x0, k, y[k], clear).value.value else x0[k])
  }

  /** Two differing objects under a key are merged recursively, with the same `clear` flag. */
  lemma ObjectsMergeRecursively(x: map<string, Value>, y: map<string, Value>, clear: bool, k: string)
    requires ReactiveMerge(x, y, clear).Success?
    requires k in y && k in x && x[k] != y[k] && IsObject(x[k]) && IsObject(y[k])
    ensures var r := ReactiveMerge(x, y, clear).value;
      k in r && r[k].Obj? && ReactiveMerge(x[k].props, y[k].props, clear) == Success(r[k].props)
  {
    var x0 := Cleared(x, y, clear);
    assert Slot(x0, k, y[k], clear).Success?;
  }

  /** An array in `y` meeting an array or nothing in `x` leaves `x[k]` with the same length and elements. */
  lemma ArrayIsCopied(x: map<string, Value>, y: map<string, Value>, clear: bool, k: string)
    requires ReactiveMerge(x, y, clear).Success?
    requires k in y && y[k].Arr? && (k !in x || x[k].Undefined? || x[k].Arr?)
    ensures var r := ReactiveMerge(x, y, clear).value;
      k in r && r[k].Arr? && |r[k].items| == |y[k].items| && r[k] == y[k]
  {
    var x0 := Cleared(x, y, clear);
    assert Slot(x0, k, y[k], clear).Success?;
  }

  /** Any other value in `y` is copied into `x[k]`. */
  lemma OtherValueIsCopied(x: map<string, Value>, y: map<string, Value>, clear: bool, k: string)
    requires ReactiveMerge(x, y, clear).Success?
    requires k in y && !y[k].Arr? && y[k] != Undefined && !(k in x && IsObject(x[k]) && IsObject(y[k]))
    ensures var r := ReactiveMerge(x, y, clear).value;
      k in r && r[k] == y[k]
  {
    var x0 := Cleared(x, y, clear);
    assert Slot(x0, k, y[k], clear).Success?;
  }

  /** With `clear`, `r` keeps no key of any object level that `y` does not have at that level. */
  predicate KeysWithin(r: map<string, Value>, y: map<string, Value>)
    decreases Obj(y)
  {
    && r.Keys <= y.Keys
    && forall k :: k in r && r[k].Obj? && y[k].Obj? ==> KeysWithin(r[k].props, y[k].props)
  }

  lemma {:induction false} KeysWithinSelf(y: map<string, Value>)
    ensures KeysWithin(y, y)
    decreases Obj(y)
  {
    forall k | k in y && y[k].Obj?
      ensures KeysWithin(y[k].props, y[k].props)
    {
      KeysWithinSelf(y[k].props);
    }
  }

  /** `clear` deletes the keys `y` lacks at every nesting level where both sides are objects. */
  lemma {:induction false} ClearIsDeep(x: map<string, Value>, y: map<string, Value>)
    requires ReactiveMerge(x, y, true).Success?
    ensures KeysWithin(ReactiveMerge(x, y, true).value, y)
    decreases Obj(y)
  {
    var r := ReactiveMerge(x, y, true).value;
    forall k | k in r && r[k].Obj? && y[k].Obj?
      ensures KeysWithin(r[k].props, y[k].props)
    {
      if k in x && x[k] != y[k] && IsObject(x[k]) {
        ClearIsDeep(x[k].props, y[k].props);
      } else {
        assert r[k] == y[k];
        KeysWithinSelf(y[k].props);
      }
    }
  }

  /**
   * The trees `reactiveMerge(x, y, true)` turns into a copy of `y`: `y` holds
   * no `undefined` at the object levels it shares with `x`, and an array in
   * `y` meets an array or nothing in `x`.
   */
  predicate Compatible(x: map<string, Value>, y: map<string, Value>)
    decreases Obj(y)
  {
    forall k :: k in y ==>
      && y[k] != Undefined
      && (y[k].Arr? ==> k !in x || x[k].Undefined? || x[k].Arr?)
      && (y[k].Obj? && k in x && x[k].Obj? ==> Compatible(x[k].props, y[k].props))
  }

  /** On compatible trees, `reactiveMerge` with `clear` leaves `x` deep-equal to `y`. */
  lemma {:induction false} ClearMakesEqual(x: map<string, Value>, y: map<string, Value>)
    requires Compatible(x, y)
    ensures ReactiveMerge(x, y, true) == Success(y)
    decreases Obj(y)
  {
    var x0 := Cleared(x, y, true);
    forall k | k in y
      ensures Slot(x0, k, y[k], true) == Success(Some(y[k]))
    {
      if k in x && x[k] != y[k] && IsObject(x[k]) && IsObject(y[k]) {
        ClearMakesEqual(x[k].props, y[k].props);
      }
    }
    var r := ReactiveMerge(x, y, true);
    assert r.Success?;
    assert r.value == y;
  }

  /** A concrete TypeError: an array cannot be copied into a number slot. */
  lemma ArrayOverNumberThrows()
    ensures ReactiveMerge(map["a" := Num(1)], map["a" := Arr([Num(2)])], false).Failure?
  {
    var y := map["a" := Arr([Num(2)])];
    assert "a" in y;
  }
}

=== FILE: registry.dfy ===
/**
 * The registry ("pinia") of packages/pinia/src/createPinia.ts and the active
 * registry of packages/pinia/src/rootStore.ts. Registries are shared mutable
 * objects, so they live in a heap and are referred to by index.
 */
module Registry {

  import opened Wrappers
  import opened Json

  /** A plugin function, known by identity. */
  datatype Plugin = Plugin(pid: nat)

  /** `_p` (plugins in registration order), `_s` (store id to store instance) and `state` (store id to state). */
  datatype Pinia = Pinia(plugins: seq<Plugin>, stores: map<string, nat>, state: map<string, StateTree>)

  /** Every registry allocated so far, and the module-level `activePinia`. */
  datatype Root = Root(heap: seq<Pinia>, active: Option<nat>)

  predicate ValidRoot(r: Root) {
    r.active.Some? ==> r.active.value < |r.heap|
  }

  /** The prefix every diagnostic of the library starts with. */
  const LibraryTag: string := "[pinia-react]"

  const NoActivePiniaMessage: string :=
    LibraryTag + " getActivePinia was called with no active Pinia. Did you forget to install pinia?\n"
    + "const pinia = createPinia()\n"
    + "app.use(pinia) or createPinia() first."

  /** Module load: `activePinia` starts out undefined. */
  function InitialRoot(): (r: Root)
    ensures ValidRoot(r) && r.active.None?
  {
    Root([], None)
  }

  /** `createPinia()`: a fresh, empty registry that becomes the active one. */
  function CreatePinia(r: Root): (res: (Root, nat))
    requires ValidRoot(r)
    ensures ValidRoot(res.0)
    ensures res.1 == |r.heap| && |res.0.heap| == |r.heap| + 1
    ensures res.0.heap[res.1] == Pinia([], map[], map[])
    ensures res.0.heap[..|r.heap|] == r.heap
    ensures res.0.active == Some(res.1)
  {
    var p := |r.heap|;
    (Root(r.heap + [Pinia([], map[], map[])], Some(p)), p)
  }

  /** `pinia.use(plugin)`: appends the plugin (duplicates kept) and returns the same registry. */
  function Use(r: Root, p: nat, plugin: Plugin): (res: (Root, nat))
    requires ValidRoot(r) && p < |r.heap|
    ensures ValidRoot(res.0)
    ensures res.1 == p
    ensures |res.0.heap| == |r.heap| && res.0.active == r.active
    ensures res.0.heap[p].plugins == r.heap[p].plugins + [plugin]
    ensures res.0.heap[p].stores == r.heap[p].stores && res.0.heap[p].state == r.heap[p].state
    ensures forall q :: 0 <= q < |r.heap| && q != p ==> res.0.heap[q] == r.heap[q]
  {
    var pinia := r.heap[p];
    (r.(heap := r.heap[p := pinia.(plugins := pinia.plugins + [plugin])]), p)
  }

  /** `setActivePinia(pinia)`. */
  function SetActivePinia(r: Root, p: nat): (res: Root)
    requires ValidRoot(r) && p < |r.heap|
    ensures ValidRoot(res)
    ensures res.heap == r.heap && res.active == Some(p)
  {
    r.(active := Some(p))
  }

  /** `getActivePinia()`: the active registry, or the descriptive error when none was set. */
  function GetActivePinia(r: Root): (res: Result<nat>)
    ensures r.active.Some? ==> res == Success(r.active.value)
    ensures r.active.None? ==> res.Failure? && res.error.PiniaError?
    ensures res.Failure? ==> res.error.PiniaError? && StartsWith(res.error.message, LibraryTag)
  {
    if r.active.Some? then Success(r.active.value)
    else
      assert NoActivePiniaMessage[..|LibraryTag|] == LibraryTag;
      Failure(PiniaError(NoActivePiniaMessage))
  }

  predicate StartsWith(s: string, prefix: string) {
    |prefix| <= |s| && s[..|prefix|] == prefix
  }

  /** Nothing is active before the first `setActivePinia` or `createPinia`. */
  lemma GetBeforeSetFails()
    ensures GetActivePinia(InitialRoot()).Failure?
  {
  }

  /** The last `setActivePinia` call wins. */
  lemma LastSetWins(r: Root, p: nat, q: nat)
    requires ValidRoot(r) && p < |r.heap| && q < |r.heap|
    ensures GetActivePinia(SetActivePinia(SetActivePinia(r, p), q)) == Success(q)
  {
  }

  /** Plugins added to the registry `createPinia` activated are seen through `getActivePinia`. */
  lemma UseOnActiveIsVisible(r: Root, plugin: Plugin)
    requires ValidRoot(r)
    ensures var (r1, p) := CreatePinia(r);
      var (r2, p2) := Use(r1, p, plugin);
      GetActivePinia(r2) == Success(p) && r2.heap[p].plugins == [plugin]
  {
  }

  /** Registering one plugin twice keeps both entries. */
  lemma UseKeepsDuplicates(r: Root, p: nat, plugin: Plugin)
    requires ValidRoot(r) && p < |r.heap|
    ensures var (r1, _) := Use(r, p, plugin);
      var (r2, _) := Use(r1, p, plugin);
      r2.heap[p].plugins == r.heap[p].plugins + [plugin, plugin]
  {
  }
}

/**
 * The registry of the legacy src/pinia.ts: plugins are kept in a Set, and the
 * module-level `pinia` is a fresh registry from module load on.
 */
module LegacyRegistry {

  import opened Json
  import opened Registry

  /** `_store`, `_state` and `_plugins`. */
  datatype LegacyPinia = LegacyPinia(store: map<string, nat>, state: map<string, StateTree>, plugins: set<Plugin>)

  datatype LegacyRoot = LegacyRoot(heap: seq<LegacyPinia>, active: nat)

  predicate ValidLegacy(r: LegacyRoot) {
    r.active < |r.heap|
  }

  /** `createPinia()`: a fresh, empty registry; it is not made active. */
  function LegacyCreatePinia(r: LegacyRoot): (res: (LegacyRoot, nat))
    requires ValidLegacy(r)
    ensures ValidLegacy(res.0)
    ensures res.1 == |r.heap| && res.0.heap == r.heap + [LegacyPinia(map[], map[], {})]
    ensures res.0.active == r.active
  {
    (r.(heap := r.heap + [LegacyPinia(map[], map[], {})]), |r.heap|)
  }

  /** Module load runs `setActivePinia(createPinia())`. */
  function LegacyModuleLoad(): (r: LegacyRoot)
    ensures ValidLegacy(r) && r.heap[r.active] == LegacyPinia(map[], map[], {})
  {
    LegacyRoot([LegacyPinia(map[], map[], {})], 0)
  }

  /** `pinia.use(p)`: adds to the Set and returns the same registry. */
  function LegacyUse(r: LegacyRoot, p: nat, plugin: Plugin): (res: (LegacyRoot, nat))
    requires ValidLegacy(r) && p < |r.heap|
    ensures ValidLegacy(res.0)
    ensures res.1 == p && res.0.active == r.active && |res.0.heap| == |r.heap|
    ensures res.0.heap[p].plugins == r.heap[p].plugins + {plugin}
    ensures res.0.heap[p].store == r.heap[p].store && res.0.heap[p].state == r.heap[p].state
    ensures forall q :: 0 <= q < |r.heap| && q != p ==> res.0.heap[q] == r.heap[q]
  {
    var pinia := r.heap[p];
    (r.(heap := r.heap[p := pinia.(plugins := pinia.plugins + {plugin})]), p)
  }

  /** `setActivePinia(_pinia)` replaces the module-level registry. */
  function LegacySetActivePinia(r: LegacyRoot, p: nat): (res: LegacyRoot)
    requires ValidLegacy(r) && p < |r.heap|
    ensures res.heap == r.heap && res.active == p
  {
    r.(active := p)
  }

  /** Installing the same plugin any number of times keeps one entry. */
  lemma {:induction false} LegacyUseDeduplicates(r: LegacyRoot, p: nat, plugin: Plugin, times: nat)
    requires ValidLegacy(r) && p < |r.heap| && times > 0
    ensures var r' := UseRepeatedly(r, p, plugin, times);
      r'.heap[p].plugins == r.heap[p].plugins + {plugin} && |r'.heap[p].plugins| <= |r.heap[p].plugins| + 1
    decreases times
  {
    var r' := UseRepeatedly(r, p, plugin, times);
    if times > 1 {
      var before := UseRepeatedly(r, p, plugin, times - 1);
      LegacyUseDeduplicates(r, p, plugin, times - 1);
      assert r' == LegacyUse(before, p, plugin).0;
      assert r'.heap[p].plugins == before.heap[p].plugins + {plugin};
    } else {
      assert r' == LegacyUse(UseRepeatedly(r, p, plugin, 0), p, plugin).0;
    }
    assert |r.heap[p].plugins + {plugin}| <= |r.heap[p].plugins| + 1;
  }

  /** `times` consecutive `use(plugin)` calls on registry `p`. */
  function UseRepeatedly(r: LegacyRoot, p: nat, plugin: Plugin, times: nat): (res: LegacyRoot)
    requires ValidLegacy(r) && p < |r.heap|
    ensures ValidLegacy(res) && |res.heap| == |r.heap|
  {
    if times == 0 then r else LegacyUse(UseRepeatedly(r, p, plugin, times - 1), p, plugin).0
  }
}

=== FILE: store.dfy ===
/**
 * The store engine of packages/pinia/src/store.ts: one `defineStore` call
 * and the store instances its `getStore` creates. The closure variables of
 * `defineStore` (`listeners`, each instance's `currentState`) and the shared
 * registry are threaded through pure transition functions.
 *
 * immer is not modelled: every commit receives the next state and the patch
 * list immer would report, and plugins are a function parameter.
 */
module Store {

  import opened Wrappers
  import opened Json
  import opened OrderedSet
  import opened Paths
  import opened Registry

  /** What the engine inspects of the `options` given to `defineStore`. */
  datatype Options = Options(hasState: bool, getters: Option<set<string>>, actions: Option<set<string>>)

  /** The options plugins receive: `{ ...options, actions }`, with `actions` defaulted to `{}`. */
  datatype PluginOptions = PluginOptions(hasState: bool, getters: Option<set<string>>, actions: set<string>)

  /** `{ pinia, store: storePublicApi, options }`: the store instance is named by its token; there is no id field. */
  datatype PluginContext = PluginContext(pinia: nat, store: nat, options: PluginOptions)

  datatype PluginCall = PluginCall(plugin: Plugin, context: PluginContext)

  /** A callback in the `listeners` Set; `handle` tells apart closures created by different calls. */
  datatype Listener =
    | SubscriptionListener(handle: nat, callback: nat)
    | BindingListener(handle: nat, binding: nat)

  /** One call `fn(nextState, oldState, patches)` made by `emit`. */
  datatype Invocation = Invocation(listener: Listener, next: StateTree, prev: StateTree, patches: seq<Patch>)

  /**
   * The state of one `defineStore` closure: the registry heap, the id and
   * options, the registry captured at definition time, the `listeners`
   * variable (undefined before the first `getStore` and after `$dispose`),
   * the `currentState` of every instance created so far, and the next fresh
   * closure handle.
   */
  datatype Session = Session(
    root: Root,
    id: string,
    options: Options,
    pinia: nat,
    listeners: Option<seq<Listener>>,
    instances: seq<StateTree>,
    nextHandle: nat)

  /** A step whose JavaScript counterpart may throw after changing state. */
  datatype Outcome<T> = Outcome(session: Session, result: Result<T>)

  predicate Valid(s: Session) {
    && ValidRoot(s.root)
    && s.pinia < |s.root.heap|
    && (s.listeners.Some? ==>
         && Distinct(s.listeners.value)
         && forall l :: l in s.listeners.value ==> l.handle < s.nextHandle)
  }

  function PiniaOf(s: Session): Pinia
    requires s.pinia < |s.root.heap|
  {
    s.root.heap[s.pinia]
  }

  function WithPinia(s: Session, p: Pinia): (r: Session)
    requires s.pinia < |s.root.heap|
    ensures r.pinia < |r.root.heap| && PiniaOf(r) == p
    ensures ValidRoot(s.root) ==> ValidRoot(r.root)
    ensures r.root.active == s.root.active && |r.root.heap| == |s.root.heap|
    ensures r.id == s.id && r.options == s.options && r.listeners == s.listeners
    ensures r.instances == s.instances && r.nextHandle == s.nextHandle
  {
    s.(root := s.root.(heap := s.root.heap[s.pinia := p]))
  }

  /** `defineStore(id, options)`: captures `activePinia ?? getActivePinia()`, which throws when none is active. */
  function DefineStore(root: Root, id: string, options: Options): (r: Result<Session>)
    requires ValidRoot(root)
    ensures root.active.None? <==> r.Failure?
    ensures r.Success? ==> Valid(r.value) && r.value.pinia == root.active.value && r.value.listeners.None?
    ensures r.Success? ==> r.value.root == root && r.value.instances == []
  {
    var p :- GetActivePinia(root);
    Success(Session(root, id, options, p, None, [], 0))
  }

  // ---------------------------------------------------------------------------
  // getStore and the plugin loop

  function PluginOptionsOf(o: Options): (r: PluginOptions)
    ensures r.hasState == o.hasState && r.getters == o.getters
    ensures r.actions == (if o.actions.Some? then o.actions.value else {})
  {
    PluginOptions(o.hasState, o.getters, if o.actions.Some? then o.actions.value else {})
  }

  /** `Object.assign(storePublicApi, ext)` goes through the refusing `set` trap and throws on the first key. */
  predicate ExtensionThrows(ext: Value) {
    Truthy(ext) && HasOwnEnumerable(ext)
  }

  /**
   * `pinia._p.forEach(plugin => ...)`: calls each plugin in order and stops at
   * the first one whose extension makes `Object.assign` throw.
   */
  function RunPlugins(plugins: seq<Plugin>, ctx: PluginContext, run: (Plugin, PluginContext) -> Value)
    : (r: (seq<PluginCall>, bool))
    ensures |r.0| <= |plugins|
    ensures forall i :: 0 <= i < |r.0| ==> r.0[i] == PluginCall(plugins[i], ctx)
    ensures !r.1 ==> |r.0| == |plugins| && forall i :: 0 <= i < |plugins| ==> !ExtensionThrows(run(plugins[i], ctx))
    ensures r.1 ==>
      && |r.0| > 0
      && ExtensionThrows(run(plugins[|r.0| - 1], ctx))
      && forall i :: 0 <= i < |r.0| - 1 ==> !ExtensionThrows(run(plugins[i], ctx))
  {
    if plugins == [] then ([], false)
    else if ExtensionThrows(run(plugins[0], ctx)) then ([PluginCall(plugins[0], ctx)], true)
    else
      var rest := RunPlugins(plugins[1..], ctx, run);
      ([PluginCall(plugins[0], ctx)] + rest.0, rest.1)
  }

  datatype Created = Created(session: Session, result: Result<nat>, pluginCalls: seq<PluginCall>)

  /**
   * `getStore()`: the registered instance when the id is known; otherwise a
   * new instance whose state comes from the factory (`factoryState`) or `{}`, then
   * every plugin in order, then registration.
   */
  function GetStore(s: Session, factoryState: StateTree, run: (Plugin, PluginContext) -> Value): (c: Created)
    requires Valid(s)
    ensures Valid(c.session)
    // a registered id: same instance, no factory, no plugin
    ensures s.id in PiniaOf(s).stores ==>
      c.session == s && c.result == Success(PiniaOf(s).stores[s.id]) && c.pluginCalls == []
    ensures s.id !in PiniaOf(s).stores ==> CreatesInstance(s, factoryState, run, c)
  {
    var pinia := PiniaOf(s);
    if s.id in pinia.stores then Created(s, Success(pinia.stores[s.id]), [])
    else
      var initial := if s.options.hasState then factoryState else map[];
      var token := |s.instances|;
      var p1 := pinia.(state := pinia.state[s.id := initial]);
      var s1 := WithPinia(s, p1).(listeners := Some([]), instances := s.instances + [initial]);
      var ctx := PluginContext(s.pinia, token, PluginOptionsOf(s.options));
      var (calls, threw) := RunPlugins(pinia.plugins, ctx, run);
      if threw then Created(s1, Failure(TypeError), calls)
      else Created(WithPinia(s1, p1.(stores := p1.stores[s.id := token])), Success(token), calls)
  }

  /** What creating a new instance does, whether or not a plugin throws. */
  ghost predicate CreatesInstance(s: Session, factoryState: StateTree, run: (Plugin, PluginContext) -> Value, c: Created)
    requires Valid(s) && Valid(c.session)
  {
    var initial := if s.options.hasState then factoryState else map[];
    var token := |s.instances|;
    var ctx := PluginContext(s.pinia, token, PluginOptionsOf(s.options));
    var plugins := PiniaOf(s).plugins;
    && c.session.instances == s.instances + [initial]
    && c.session.listeners == Some([])
    && PiniaOf(c.session).state == PiniaOf(s).state[s.id := initial]
    && PiniaOf(c.session).plugins == plugins
    && c.session.root.active == s.root.active
    // plugins run in registration order, each with the same context
    && |c.pluginCalls| <= |plugins|
    && (forall i :: 0 <= i < |c.pluginCalls| ==> c.pluginCalls[i] == PluginCall(plugins[i], ctx))
    // registered only once every plugin has run without extending the store
    && (c.result.Success? <==> forall i :: 0 <= i < |plugins| ==> !ExtensionThrows(run(plugins[i], ctx)))
    && (c.result.Success? ==>
         && c.result.value == token
         && |c.pluginCalls| == |plugins|
         && PiniaOf(c.session).stores == PiniaOf(s).stores[s.id := token])
    && (c.result.Failure? ==> c.result.error == TypeError && PiniaOf(c.session).stores == PiniaOf(s).stores)
  }

  // ---------------------------------------------------------------------------
  // Commits

  /** `emit(nextState, oldState, patches)`: every listener once, in insertion order, with the same arguments. */
  function Emit(ls: seq<Listener>, next: StateTree, prev: StateTree, patches: seq<Patch>): (r: seq<Invocation>)
    ensures |r| == |ls|
    ensures forall i :: 0 <= i < |ls| ==> r[i] == Invocation(ls[i], next, prev, patches)
  {
    if ls == [] then [] else [Invocation(ls[0], next, prev, patches)] + Emit(ls[1..], next, prev, patches)
  }

  /**
   * `internalPatch`: with immer's result `next` and `patches`, commits iff a
   * patch was produced or this is a reset. `emit` on an undefined `listeners`
   * (after `$dispose`) throws once the state has been written.
   */
  function InternalPatch(s: Session, token: nat, next: StateTree, patches: seq<Patch>, isReset: bool)
    : (o: Outcome<seq<Invocation>>)
    requires Valid(s) && token < |s.instances|
    ensures Valid(o.session)
    ensures |o.session.instances| == |s.instances|
    ensures o.session.listeners == s.listeners && o.session.nextHandle == s.nextHandle
    ensures |patches| > 0 || isReset ==>
      && o.session.instances == s.instances[token := next]
      && PiniaOf(o.session) == PiniaOf(s).(state := PiniaOf(s).state[s.id := next])
      && (s.listeners.None? ==> o.result == Failure(TypeError))
      && (s.listeners.Some? ==>
           && o.result.Success?
           && |o.result.value| == |s.listeners.value|
           && forall i :: 0 <= i < |o.result.value| ==>
                o.result.value[i] == Invocation(s.listeners.value[i], next, s.instances[token], patches))
    ensures !(|patches| > 0 || isReset) ==> o == Outcome(s, Success([]))
  {
    var prev := s.instances[token];
    if |patches| > 0 || isReset then
      var p := PiniaOf(s);
      var s1 := WithPinia(s, p.(state := p.state[s.id := next])).(instances := s.instances[token := next]);
      if s1.listeners.None? then Outcome(s1, Failure(TypeError))
      else Outcome(s1, Success(Emit(s1.listeners.value, next, prev, patches)))
    else Outcome(s, Success([]))
  }

  /** A top-level key whose value `Object.assign` would change. */
  predicate KeyChanges(base: StateTree, partial: StateTree, k: string)
    requires k in partial
  {
    k !in base || base[k] != partial[k]
  }

  /**
   * The assumption made about immer for object-form `$patch`: a top-level key
   * yields a patch, at its one-key path, iff its value changes.
   */
  predicate ImmerAssignPatches(base: StateTree, partial: StateTree, patches: seq<Patch>) {
    && (forall i :: 0 <= i < |patches| ==>
         |patches[i].path| == 1 && patches[i].path[0] in partial && KeyChanges(base, partial, patches[i].path[0]))
    && (forall k :: k in partial && KeyChanges(base, partial, k) ==>
         exists i :: 0 <= i < |patches| && patches[i].path == [k])
  }

  /** `Object.assign(draft, partial)`: a shallow, top-level assignment. */
  function ShallowAssign(base: StateTree, partial: StateTree): (r: StateTree)
    ensures r.Keys == base.Keys + partial.Keys
    // each named key is replaced wholesale (nested objects are not merged)
    ensures forall k :: k in partial ==> r[k] == partial[k]
    // every other key is untouched
    ensures forall k :: k in base && k !in partial ==> r[k] == base[k]
  {
    base + partial
  }

  /** `$patch(partialState)`. */
  function PatchObject(s: Session, token: nat, partial: StateTree, patches: seq<Patch>): (o: Outcome<seq<Invocation>>)
    requires Valid(s) && token < |s.instances|
    requires ImmerAssignPatches(s.instances[token], partial, patches)
    ensures Valid(o.session)
    // a commit happens iff some named key changes value
    ensures (exists k :: k in partial && KeyChanges(s.instances[token], partial, k)) <==> |patches| > 0
    // a commit installs the shallow assignment everywhere and calls every listener with it
    ensures |patches| > 0 ==>
      && o.session.instances == s.instances[token := ShallowAssign(s.instances[token], partial)]
      && PiniaOf(o.session).state == PiniaOf(s).state[s.id := ShallowAssign(s.instances[token], partial)]
      && o.session.listeners == s.listeners
      && (s.listeners.None? ==> o.result == Failure(TypeError))
      && (s.listeners.Some? ==>
           && o.result.Success? && |o.result.value| == |s.listeners.value|
           && forall i :: 0 <= i < |o.result.value| ==>
                o.result.value[i] == Invocation(s.listeners.value[i], ShallowAssign(s.instances[token], partial),
                                                s.instances[token], patches))
    ensures |patches| == 0 ==> o == Outcome(s, Success([]))
  {
    var base := s.instances[token];
    assert |patches| > 0 ==> patches[0].path[0] in partial && KeyChanges(base, partial, patches[0].path[0]);
    InternalPatch(s, token, ShallowAssign(base, partial), patches, false)
  }

  /** `$patch(mutator)`: immer runs the mutator; its result and patches are inputs. */
  function PatchWith(s: Session, token: nat, next: StateTree, patches: seq<Patch>): (o: Outcome<seq<Invocation>>)
    requires Valid(s) && token < |s.instances|
    ensures Valid(o.session)
    ensures |patches| == 0 ==> o == Outcome(s, Success([]))
    // a mutator that produces patches commits `next` and calls every listener with it
    ensures |patches| > 0 ==>
      && o.session.instances == s.instances[token := next]
      && PiniaOf(o.session).state == PiniaOf(s).state[s.id := next]
      && o.session.listeners == s.listeners
      && (s.listeners.None? ==> o.result == Failure(TypeError))
      && (s.listeners.Some? ==>
           && o.result.Success? && |o.result.value| == |s.listeners.value|
           && forall i :: 0 <= i < |o.result.value| ==>
                o.result.value[i] == Invocation(s.listeners.value[i], next, s.instances[token], patches))
  {
    InternalPatch(s, token, next, patches, false)
  }

  /**
   * `$reset()`: `internalPatch(() => options.state!(), true)`. The factory
   * result `factoryState` replaces the state; without a factory, calling
   * `options.state` throws before anything changes.
   */
  function Reset(s: Session, token: nat, factoryState: StateTree, patches: seq<Patch>): (o: Outcome<seq<Invocation>>)
    requires Valid(s) && token < |s.instances|
    ensures Valid(o.session)
    ensures !s.options.hasState ==> o == Outcome(s, Failure(TypeError))
    // with a factory, the reset commits whatever patches immer reports, none included
    ensures s.options.hasState ==>
      && o.session.instances == s.instances[token := factoryState]
      && PiniaOf(o.session).state == PiniaOf(s).state[s.id := factoryState]
      && o.session.listeners == s.listeners
      && (s.listeners.None? ==> o.result == Failure(TypeError))
      && (s.listeners.Some? ==>
           && o.result.Success? && |o.result.value| == |s.listeners.value|
           && forall i :: 0 <= i < |o.result.value| ==>
                o.result.value[i] == Invocation(s.listeners.value[i], factoryState, s.instances[token], patches))
  {
    if !s.options.hasState then Outcome(s, Failure(TypeError))
    else InternalPatch(s, token, factoryState, patches, true)
  }

  // ---------------------------------------------------------------------------
  // Listeners

  /** `listeners!.add(listener)` for a freshly created closure. */
  function AddListener(s: Session, l: Listener): (o: Outcome<Listener>)
    requires Valid(s) && l.handle == s.nextHandle
    ensures Valid(o.session)
    ensures s.listeners.None? ==> o == Outcome(s, Failure(TypeError))
    ensures s.listeners.Some? ==>
      && o.result == Success(l)
      && o.session == s.(listeners := Some(s.listeners.value + [l]), nextHandle := s.nextHandle + 1)
  {
    if s.listeners.None? then Outcome(s, Failure(TypeError))
    else
      var ls := s.listeners.value;
      assert l !in ls;
      Outcome(s.(listeners := Some(OrderedSet.Add(ls, l)), nextHandle := s.nextHandle + 1), Success(l))
  }

  /** `$subscribe(callback)`: adds a wrapper that forwards `(state, prev)`; the result identifies the remover. */
  function Subscribe(s: Session, callback: nat): (o: Outcome<Listener>)
    requires Valid(s)
    ensures Valid(o.session)
    ensures s.listeners.None? ==> o == Outcome(s, Failure(TypeError))
    // a new listener, distinct from every registered one, joins the end of the set
    ensures s.listeners.Some? ==>
      && o.result.Success? && o.result.value.SubscriptionListener? && o.result.value.callback == callback
      && o.result.value !in s.listeners.value
      && o.session.listeners == Some(s.listeners.value + [o.result.value])
      && o.session.instances == s.instances && o.session.root == s.root
  {
    AddListener(s, SubscriptionListener(s.nextHandle, callback))
  }

  /** The `subscribe` function `useStore` hands to `useSyncExternalStore`, for binding `b`. */
  function SubscribeBinding(s: Session, b: nat): (o: Outcome<Listener>)
    requires Valid(s)
    ensures Valid(o.session)
    ensures s.listeners.None? ==> o == Outcome(s, Failure(TypeError))
    ensures s.listeners.Some? ==>
      && o.result.Success? && o.result.value.BindingListener? && o.result.value.binding == b
      && o.result.value !in s.listeners.value
      && o.session.listeners == Some(s.listeners.value + [o.result.value])
      && o.session.instances == s.instances && o.session.root == s.root
  {
    AddListener(s, BindingListener(s.nextHandle, b))
  }

  /** The remover `() => listeners!.delete(listener)`, returning whether the listener was present. */
  function RemoveListener(s: Session, l: Listener): (o: Outcome<bool>)
    requires Valid(s)
    ensures Valid(o.session)
    ensures s.listeners.None? ==> o == Outcome(s, Failure(TypeError))
    ensures s.listeners.Some? ==>
      && o.result == Success(l in s.listeners.value)
      && o.session.listeners.Some?
      && (forall m :: m in o.session.listeners.value <==> m in s.listeners.value && m != l)
      && o.session == s.(listeners := o.session.listeners)
  {
    if s.listeners.None? then Outcome(s, Failure(TypeError))
    else Outcome(s.(listeners := Some(Delete(s.listeners.value, l))), Success(l in s.listeners.value))
  }

  /**
   * `$dispose()`: clears the listeners, unregisters the id and drops its
   * state. With `listeners` already undefined, `listeners!.clear()` throws.
   */
  function Dispose(s: Session): (o: Outcome<()>)
    requires Valid(s)
    ensures Valid(o.session)
    ensures s.listeners.None? ==> o == Outcome(s, Failure(TypeError))
    ensures s.listeners.Some? ==>
      && o.result.Success?
      && o.session.listeners.None?
      && PiniaOf(o.session).stores == PiniaOf(s).stores - {s.id}
      && PiniaOf(o.session).state == PiniaOf(s).state - {s.id}
      && PiniaOf(o.session).plugins == PiniaOf(s).plugins
      && o.session.instances == s.instances
  {
    if s.listeners.None? then Outcome(s, Failure(TypeError))
    else
      var p := PiniaOf(s);
      Outcome(WithPinia(s, p.(stores := p.stores - {s.id}, state := p.state - {s.id})).(listeners := None), Success(()))
  }

  // ---------------------------------------------------------------------------
  // What listeners do with an invocation

  datatype Delivery =
    | CallbackCalled(callback: nat, state: StateTree, prev: StateTree)
    | RenderRequested(binding: nat)
    | Ignored

  /**
   * A `$subscribe` wrapper forwards only `(state, prev)`; a binding listener
   * asks its component to re-render iff the filter fires on its tracked set.
   */
  function Deliver(inv: Invocation, tracked: nat -> set<string>): (d: Delivery)
    ensures inv.listener.SubscriptionListener? ==>
      d == CallbackCalled(inv.listener.callback, inv.next, inv.prev)
    ensures inv.listener.BindingListener? ==>
      (d == RenderRequested(inv.listener.binding) <==> ListenerFires(tracked(inv.listener.binding), inv.patches))
  {
    match inv.listener
    case SubscriptionListener(_, cb) => CallbackCalled(cb, inv.next, inv.prev)
    case BindingListener(_, b) =>
      if ListenerFires(tracked(b), inv.patches) then RenderRequested(b) else Ignored
  }
}

=== FILE: store_lemmas.dfy ===
/**
 * Properties relating several store operations: commits, `$reset`,
 * object-form `$patch`, subscription removal, the per-id singleton and
 * `$dispose`.
 */
module StoreLemmas {

  import opened Wrappers
  import opened Json
  import opened OrderedSet
  import opened Paths
  import opened Registry
  import opened Store

  /** Each listener is called exactly once per commit. */
  lemma CommitCallsEachListenerOnce(s: Session, token: nat, next: StateTree, patches: seq<Patch>, isReset: bool)
    requires Valid(s) && token < |s.instances| && s.listeners.Some?
    requires |patches| > 0 || isReset
    ensures var o := InternalPatch(s, token, next, patches, isReset);
      && o.result.Success?
      && (forall l :: l in s.listeners.value ==>
            exists i :: 0 <= i < |o.result.value| && o.result.value[i].listener == l)
      && (forall i, j :: 0 <= i < j < |o.result.value| ==>
            o.result.value[i].listener != o.result.value[j].listener)
  {
    var o := InternalPatch(s, token, next, patches, isReset);
    var ls := s.listeners.value;
    forall l | l in ls
      ensures exists i :: 0 <= i < |o.result.value| && o.result.value[i].listener == l
    {
      var i :| 0 <= i < |ls| && ls[i] == l;
      assert o.result.value[i].listener == l;
    }
  }

  /**
   * `$reset` commits whatever patches immer reports, none included: the
   * factory result is installed and every listener runs.
   */
  lemma ResetAlwaysCommits(s: Session, token: nat, factoryState: StateTree, patches: seq<Patch>)
    requires Valid(s) && token < |s.instances| && s.options.hasState && s.listeners.Some?
    ensures var o := Reset(s, token, factoryState, patches);
      && o.session.instances[token] == factoryState
      && PiniaOf(o.session).state[s.id] == factoryState
      && o.result.Success?
      && |o.result.value| == |s.listeners.value|
  {
  }

  /** Object-form `$patch` never merges nested objects: a named key takes the given value wholesale. */
  lemma PatchObjectReplacesNested(s: Session, token: nat, key: string, inner: map<string, Value>, patches: seq<Patch>)
    requires Valid(s) && token < |s.instances| && s.listeners.Some?
    requires ImmerAssignPatches(s.instances[token], map[key := Obj(inner)], patches)
    requires |patches| > 0
    ensures var o := PatchObject(s, token, map[key := Obj(inner)], patches);
      o.session.instances[token][key] == Obj(inner)
      && forall k :: k in s.instances[token] && k != key ==> o.session.instances[token][k] == s.instances[token][k]
  {
  }

  /**
   * A `$subscribe` callback receives `(state, prev)` once per commit; after
   * its remover runs, commits no longer reach it.
   */
  lemma SubscribeThenUnsubscribe(s: Session, callback: nat, token: nat, next: StateTree, patches: seq<Patch>,
                                 tracked: nat -> set<string>)
    requires Valid(s) && s.listeners.Some? && token < |s.instances|
    requires |patches| > 0
    ensures var sub := Subscribe(s, callback);
      var l := sub.result.value;
      var before := InternalPatch(sub.session, token, next, patches, false);
      var removed := RemoveListener(sub.session, l);
      var after := InternalPatch(removed.session, token, next, patches, false);
      && sub.result.Success?
      && before.result.Success?
      && Deliver(before.result.value[|before.result.value| - 1], tracked)
           == CallbackCalled(callback, next, s.instances[token])
      && removed.result == Success(true)
      && after.result.Success?
      && forall i :: 0 <= i < |after.result.value| ==> after.result.value[i].listener != l
  {
    var sub := Subscribe(s, callback);
    var l := sub.result.value;
    var removed := RemoveListener(sub.session, l);
    var after := InternalPatch(removed.session, token, next, patches, false);
    forall i | 0 <= i < |after.result.value|
      ensures after.result.value[i].listener != l
    {
      assert after.result.value[i].listener in removed.session.listeners.value;
    }
  }

  /** A binding listener asks for a re-render iff the filter fires for the binding's tracked set. */
  lemma BindingNotifiedIffFilterFires(s: Session, b: nat, token: nat, next: StateTree, patches: seq<Patch>,
                                      tracked: nat -> set<string>)
    requires Valid(s) && s.listeners.Some? && token < |s.instances| && |patches| > 0
    ensures var sub := SubscribeBinding(s, b);
      var o := InternalPatch(sub.session, token, next, patches, false);
      && o.result.Success?
      && (Deliver(o.result.value[|o.result.value| - 1], tracked) == RenderRequested(b) <==>
          ListenerFires(tracked(b), patches))
  {
  }

  /** Once an instance is registered, `getStore` returns it without running the factory or any plugin. */
  lemma GetStoreIsSingleton(s: Session, f1: StateTree, f2: StateTree,
                            run1: (Plugin, PluginContext) -> Value, run2: (Plugin, PluginContext) -> Value)
    requires Valid(s)
    requires GetStore(s, f1, run1).result.Success?
    ensures var c1 := GetStore(s, f1, run1);
      var c2 := GetStore(c1.session, f2, run2);
      c2.session == c1.session && c2.result == c1.result && c2.pluginCalls == []
  {
    var c1 := GetStore(s, f1, run1);
    assert s.id in PiniaOf(c1.session).stores;
  }

  /**
   * A first `getStore` whose plugins all return nothing that extends the
   * store registers a new instance holding the factory's state (or `{}`
   * without a factory), after calling every plugin once.
   */
  lemma FirstGetStoreCreates(s: Session, factoryState: StateTree, run: (Plugin, PluginContext) -> Value)
    requires Valid(s) && s.id !in PiniaOf(s).stores
    requires forall p :: p in PiniaOf(s).plugins ==>
      !ExtensionThrows(run(p, PluginContext(s.pinia, |s.instances|, PluginOptionsOf(s.options))))
    ensures var c := GetStore(s, factoryState, run);
      var initial := if s.options.hasState then factoryState else map[];
      && c.result == Success(|s.instances|)
      && c.session.instances == s.instances + [initial]
      && PiniaOf(c.session).stores[s.id] == |s.instances|
      && PiniaOf(c.session).state[s.id] == initial
      && c.session.listeners == Some([])
      && |c.pluginCalls| == |PiniaOf(s).plugins|
  {
    var plugins := PiniaOf(s).plugins;
    assert forall i :: 0 <= i < |plugins| ==> plugins[i] in plugins;
  }

  /** A plugin returning an extension object makes `getStore` throw, and the id stays unregistered. */
  lemma ExtendingPluginThrows(s: Session, factoryState: StateTree, run: (Plugin, PluginContext) -> Value, plugin: Plugin)
    requires Valid(s) && s.id !in PiniaOf(s).stores && plugin in PiniaOf(s).plugins
    requires var ext := run(plugin, PluginContext(s.pinia, |s.instances|, PluginOptionsOf(s.options)));
      ext.Obj? && |ext.props| > 0
    ensures var c := GetStore(s, factoryState, run);
      && c.result == Failure(TypeError)
      && s.id !in PiniaOf(c.session).stores
      && c.session.instances == s.instances + [if s.options.hasState then factoryState else map[]]
      && |c.pluginCalls| <= |PiniaOf(s).plugins|
  {
    var ext := run(plugin, PluginContext(s.pinia, |s.instances|, PluginOptionsOf(s.options)));
    assert ExtensionThrows(ext);
    var i :| 0 <= i < |PiniaOf(s).plugins| && PiniaOf(s).plugins[i] == plugin;
  }

  /** After `$dispose` the id is gone, so the next `getStore` rebuilds from the factory with fresh listeners. */
  lemma DisposeThenRebuild(s: Session, factoryState: StateTree, run: (Plugin, PluginContext) -> Value)
    requires Valid(s) && s.listeners.Some? && s.options.hasState
    ensures var d := Dispose(s);
      var c := GetStore(d.session, factoryState, run);
      && s.id !in PiniaOf(d.session).stores && s.id !in PiniaOf(d.session).state
      && d.session.listeners.None?
      && c.session.instances == s.instances + [factoryState]
      && c.session.listeners == Some([])
      && (|c.pluginCalls| > 0 <==> |PiniaOf(s).plugins| > 0)
  {
    var d := Dispose(s);
    var c := GetStore(d.session, factoryState, run);
    assert s.id !in PiniaOf(d.session).stores;
    assert CreatesInstance(d.session, factoryState, run, c);
  }

  /** After `$dispose`, the old instance's `$subscribe` throws: `listeners` is undefined. */
  lemma SubscribeAfterDisposeThrows(s: Session, callback: nat)
    requires Valid(s) && s.listeners.Some?
    ensures Subscribe(Dispose(s).session, callback).result == Failure(TypeError)
  {
  }
}

=== FILE: subscription.dfy ===
/**
 * The subscription helpers of packages/pinia/src/subscription.ts and
 * src/subscription.ts: a Set of callbacks, a remover closure per added
 * callback, and a trigger that calls every member with the same arguments.
 */
module Subscription {

  import opened OrderedSet

  /** The closure `addSubscription` returns; `onCleanup` is known by identity. */
  datatype Remover<T> = Remover(callback: T, onCleanup: nat)

  /**
   * `subs` is the subscription Set, `cleanups` the list
   * `activeComponentCleanUp[0]`, and `cleanupRuns` the `onCleanup` calls made
   * so far, in order.
   */
  datatype Subscriptions<T> = Subscriptions(subs: seq<T>, cleanups: seq<Remover<T>>, cleanupRuns: seq<nat>)

  predicate Valid<T(==)>(s: Subscriptions<T>) {
    Distinct(s.subs)
  }

  /** `addSubscription(activeComponentCleanUp, subscriptions, callback, detached, onCleanup)`. */
  function AddSubscription<T(==,!new)>(s: Subscriptions<T>, callback: T, detached: bool, onCleanup: nat)
    : (r: (Subscriptions<T>, Remover<T>))
    requires Valid(s)
    ensures Valid(r.0)
    ensures r.1 == Remover(callback, onCleanup)
    ensures forall c :: c in r.0.subs <==> c in s.subs || c == callback
    ensures callback in s.subs ==> r.0.subs == s.subs
    ensures callback !in s.subs ==> r.0.subs == s.subs + [callback]
    // the remover joins the component's cleanup list unless detached
    ensures !detached ==> r.0.cleanups == s.cleanups + [r.1]
    ensures detached ==> r.0.cleanups == s.cleanups
    ensures r.0.cleanupRuns == s.cleanupRuns
  {
    var remover := Remover(callback, onCleanup);
    var added := s.(subs := Add(s.subs, callback));
    if detached then (added, remover)
    else (added.(cleanups := s.cleanups + [remover]), remover)
  }

  /** Calling a remover: `subscriptions.delete(callback)` then `onCleanup()`. */
  function CallRemover<T(==,!new)>(s: Subscriptions<T>, remover: Remover<T>): (r: Subscriptions<T>)
    requires Valid(s)
    ensures Valid(r)
    ensures forall c :: c in r.subs <==> c in s.subs && c != remover.callback
    ensures remover.callback !in s.subs ==> r.subs == s.subs
    ensures r.cleanups == s.cleanups
    ensures r.cleanupRuns == s.cleanupRuns + [remover.onCleanup]
  {
    Subscriptions(Delete(s.subs, remover.callback), s.cleanups, s.cleanupRuns + [remover.onCleanup])
  }

  /** `triggerSubscriptions(subscriptions, ...args)`: each member once, in insertion order, with the same arguments. */
  method TriggerSubscriptions<T, A>(subs: seq<T>, args: A) returns (calls: seq<(T, A)>)
    ensures |calls| == |subs|
    ensures forall i :: 0 <= i < |subs| ==> calls[i] == (subs[i], args)
  {
    calls := [];
    var i := 0;
    while i < |subs|
      invariant 0 <= i <= |subs|
      invariant |calls| == i
      invariant forall j :: 0 <= j < i ==> calls[j] == (subs[j], args)
    {
      calls := calls + [(subs[i], args)];
      i := i + 1;
    }
  }

  /** Removing right after adding takes out exactly the added callback and runs its cleanup once. */
  lemma AddThenRemove<T(!new)>(s: Subscriptions<T>, callback: T, detached: bool, onCleanup: nat)
    requires Valid(s) && callback !in s.subs
    ensures var (added, remover) := AddSubscription(s, callback, detached, onCleanup);
      var r := CallRemover(added, remover);
      r.subs == s.subs && r.cleanupRuns == s.cleanupRuns + [onCleanup]
  {
    var (added, remover) := AddSubscription(s, callback, detached, onCleanup);
    DeleteLast(s.subs, callback);
  }

  lemma {:induction false} DeleteLast<T(!new)>(s: seq<T>, x: T)
    requires Distinct(s + [x])
    ensures Delete(s + [x], x) == s
    decreases |s|
  {
    if s != [] {
      assert (s + [x])[0] == s[0];
      assert (s + [x])[1..] == s[1..] + [x];
      DeleteLast(s[1..], x);
    }
  }

  /** Calling a remover a second time leaves the set alone but runs `onCleanup` again. */
  lemma RemoveTwice<T(!new)>(s: Subscriptions<T>, remover: Remover<T>)
    requires Valid(s)
    ensures var once := CallRemover(s, remover);
      var twice := CallRemover(once, remover);
      twice.subs == once.subs && twice.cleanupRuns == s.cleanupRuns + [remover.onCleanup, remover.onCleanup]
  {
  }

  /**
   * `addSubscription` of src/subscription.ts: the same Set insertion and
   * remover, with no component cleanup list; `detached` is ignored.
   */
  function LegacyAddSubscription<T(==,!new)>(s: Subscriptions<T>, callback: T, detached: bool, onCleanup: nat)
    : (r: (Subscriptions<T>, Remover<T>))
    requires Valid(s)
    ensures Valid(r.0)
    ensures r.1 == Remover(callback, onCleanup)
    ensures forall c :: c in r.0.subs <==> c in s.subs || c == callback
    ensures r.0.cleanups == s.cleanups && r.0.cleanupRuns == s.cleanupRuns
  {
    (s.(subs := Add(s.subs, callback)), Remover(callback, onCleanup))
  }

  /** The legacy `detached` argument changes nothing. */
  lemma LegacyDetachedIgnored<T(!new)>(s: Subscriptions<T>, callback: T, onCleanup: nat)
    requires Valid(s)
    ensures LegacyAddSubscription(s, callback, true, onCleanup) == LegacyAddSubscription(s, callback, false, onCleanup)
    ensures LegacyAddSubscription(s, callback, false, onCleanup) == AddSubscription(s, callback, true, onCleanup)
  {
  }
}

=== FILE: wrappers.dfy ===
/** Failure-carrying results: the model's stand-in for a thrown JavaScript error. */
module Wrappers {

  datatype Option<+T> = None | Some(value: T)

  /** The JavaScript error classes the modelled code can throw. */
  datatype JsError =
    | TypeError
    | PiniaError(message: string)

  datatype Result<+R> = Success(value: R) | Failure(error: JsError) {
    predicate IsFailure() {
      Failure?
    }

    function PropagateFailure<U>(): Result<U>
      requires Failure?
    {
      Failure(error)
    }

    function Extract(): R
      requires Success?
    {
      value
    }
  }
}
